=== FILE: README.md ===
# Annotation schema and value reconciliation

A Dafny model of how the explorer in `webtool/api_explorer.py` keeps a
dataset's annotations consistent with its annotation fields. It covers
two request handlers:

- `save_annotation_fields` stores a new field schema. It then diffs the
  stored schema against the new one by field id, collecting four change
  collections:
  - field labels whose data is deleted;
  - label renames;
  - option labels that are deleted;
  - option-label renames.

  It also collects `option_fields`, the labels of the option-bearing
  fields. It then walks every post's annotation record and applies the
  changes in place. It drops posts left empty and writes the store back,
  as the empty string when no post remains.
- `save_annotations` merges submitted per-post records into the stored
  annotations. A submitted record replaces the stored one wholesale, and
  an empty one removes the post.

Modules, in dependency order:

| module | file | contents |
|---|---|---|
| `Common` | common.dfy | `Option`, `Result`, and `Fault` (the two ways a schema save raises) |
| `Annotations` | annotations.dfy | a record as an insertion-ordered dict (`seq<Entry>` with distinct labels) with Python's `del`, `pop`, overwrite and append; a store as a map from post id to record; the stored column value `Blob` |
| `Schema` | schema.dfy | field and option definitions; the stored schema in dict order and the new schema by id |
| `Delta` | delta.dfy | the schema diff, one stored field at a time, folded in dict order |
| `Migration` | migration.dfy | the in-place walk over each record's label snapshot, an order-free reference it is proved equal to, and the store-level migration |
| `ListLoop` | list_loop.dfy | the checkbox-list loop as written, set against the behaviour its comments describe |
| `Merge` | merge.dfy | the value edit of `save_annotations` |
| `Reconcile` | reconcile.dfy | the schema save end to end, plus worked scenarios |

Modelling choices:

- **Dict order is kept where it matters.**
  - The stored schema is a sequence. Later fields override earlier ones
    on a shared key of `labels_to_update` or `options_to_update`.
  - A record is a sequence of entries. An overwrite stays in place and a
    new key is appended.
  - The walk visits a snapshot of the record's labels taken before it
    starts (`list(...keys())`, line 329). Each step works on the record
    as it stands at that moment.
  - A snapshot label that has already gone from the record raises
    `KeyError` when it is looked up. The walk then returns `None`, and
    the save returns `Failure(VanishedLabel)`.
- **An order-free reference.** A record is *Clean* for a change set when:
  - no rename lands on a label the record already holds; and
  - no two of its labels are renamed to the same label.

  For Clean records, `Migration.MigrateRecordMatchesReference` proves the
  walk succeeds and equals `IntendedView`. `IntendedView` is a map built
  label by label from the old record. Outside Clean the walk depends on
  the order:
  - two labels swapped by renames lose one value
    (`Migration.RenameSwapLosesValue`);
  - a rename chain through an option field raises
    (`Migration.RenameChainRaises`);
  - one save that deletes field "A" and renames field "B" to "A" keeps
    `{A: 1, B: 2}` as `{A: 2}` (`Migration.DeleteThenRenameOntoKeepsValue`)
    but empties `{B: 2, A: 1}`: "B"'s value lands on "A" and the deletion
    of "A" then removes it, so the post is pruned
    (`Migration.RenameOntoThenDeleteLosesValue`).
- **Missing `options`.** A stored option-bearing field whose new
  definition has no `options` makes line 303 raise `KeyError`. The
  request has already written the new schema (line 246), so the
  annotations are left as they were. This is
  `Failure(MissingNewOptions(id))`.
- **Old labels in `option_fields`.** The code adds the field's OLD label
  (line 302). It then tests the label after renaming (line 342).
  - So a field that is renamed in the same edit that changes its options
    gets no option rewrite. `Reconcile.RenamedOptionFieldKeepsDeletedOption`
    works this through: "Topic" becomes "Subject" while option "Sports"
    is deleted. Post `p1` keeps `{"Subject": "Sports"}`.
- **Checkbox lists.** The migration uses the list behaviour the comments
  of lines 356-367 describe (`Migration.RewriteList`): deleted options
  are removed, the rest are renamed, and the order is kept. The loop as
  written differs. It is modelled in `ListLoop` and reported under
  Findings.

## Model

| member | source | states |
|---|---|---|
| Annotations.Delete | webtool/api_explorer.py:332-334 | `del`/`pop` removes exactly the given label from the record's view and leaves the other entries |
| Annotations.DeleteCutsOut | webtool/api_explorer.py:332-334 | deleting an absent label leaves the record as it is; a present label's entry is cut out where it stands, the others keeping their order |
| Annotations.Put | webtool/api_explorer.py:338 | assignment sets the label's value and leaves every other label's value |
| Annotations.PutKeepsOrder | webtool/api_explorer.py:338 | assignment keeps the key order: an existing label stays where it is, a new one is appended |
| Annotations.SnapshotLabels | webtool/api_explorer.py:329 | the snapshot of a record's keys lists each label exactly once, and exactly the record's labels |
| Annotations.EmptyRecord | webtool/api_explorer.py:370-371 | a record is falsy (no entries) exactly when it maps no label |
| Annotations.Encode | webtool/api_explorer.py:373-377 | the store is written as the empty string iff it has no posts, and the written value reads back as the same store |
| Schema.ChoiceIds | webtool/api_explorer.py:305 | `new_ids` holds exactly the ids of the new options |
| Schema.FirstLabel | webtool/api_explorer.py:319 | the new label of an option id is the label of the first new option with that id |
| Delta.FieldDelta | webtool/api_explorer.py:273-322 | one stored field: deleted (id gone, or retyped with neither type text-like) contributes only its label for deletion; otherwise the old label maps to the new one iff they differ; options are diffed exactly for checkbox/dropdown fields whose old definition had options, recorded under the old label; it fails iff such a field's new definition has no options |
| Delta.DeletedOptions | webtool/api_explorer.py:309-316 | an option label is deleted iff some old option with that label has an id absent from the new options |
| Delta.RenamedOptions | webtool/api_explorer.py:318-322 | an option label is renamed iff some old option with that label keeps its id under a different label |
| Delta.RenamedOptionTarget | webtool/api_explorer.py:309-322 | a renamed option label maps to the new label of the last relabelled old option carrying it |
| Delta.ChangeSetFails | webtool/api_explorer.py:298-303 | the schema diff fails iff some stored option-bearing field has no options in its new definition |
| Delta.DeletedFields | webtool/api_explorer.py:273-288 | a label is in `fields_to_delete` iff some stored field with that label is deleted or retyped outside text/textarea |
| Delta.RenamedFields | webtool/api_explorer.py:290-295 | a label is a key of `labels_to_update` iff some surviving stored field with that label has a new label |
| Delta.RenamedFieldTarget | webtool/api_explorer.py:290-295 | with distinct stored labels, a renamed field's old label maps to its new label |
| Delta.OptionBearingFields | webtool/api_explorer.py:298-302 | a label is in `option_fields` iff some stored field with that old label has its options diffed |
| Delta.DeletedOptionLabels | webtool/api_explorer.py:309-316 | `options_to_delete` is the union over option-bearing fields of their deleted option labels |
| Delta.RenamedOptionLabels | webtool/api_explorer.py:318-322 | the keys of `options_to_update` are the union over option-bearing fields of their relabelled option labels |
| Delta.RenamedOptionLabelTarget | webtool/api_explorer.py:318-322 | an option label maps to its new label in the last option-bearing field that relabels it, whichever field's values it is applied to |
| Delta.DiffOptionsSelf | webtool/api_explorer.py:309-322 | options with distinct ids diffed against themselves yield no deletion and no rename |
| Delta.UnchangedFieldsHaveNoChanges | webtool/api_explorer.py:273-325 | when every stored field reappears unchanged (fields may be added) and each stored field's option ids are distinct, the diff succeeds and the line 325 guard is false |
| Migration.Kept | webtool/api_explorer.py:359-363 | filtering a list keeps every occurrence of each surviving option, none of a deleted one, in the original order |
| Migration.KeptMembers | webtool/api_explorer.py:359-363 | an option is in the filtered list iff it was in the list and is not deleted |
| Migration.RewriteList | webtool/api_explorer.py:356-367 | the rewritten list holds exactly the renamings of the surviving options, one for one and in order |
| Migration.StepView | webtool/api_explorer.py:331-367 | one iteration on any record holding the label: a deleted label goes; otherwise the label goes and its outcome (if any) appears under its renamed label, replacing any entry already there |
| Migration.WalkReachesReference | webtool/api_explorer.py:329-367 | the walk over the remaining snapshot, from a state holding the unwalked part and the migrated entries so far, succeeds and ends in the reference |
| Migration.MigrateRecordMatchesReference | webtool/api_explorer.py:329-367 | for a Clean record the in-place walk succeeds and equals the order-free reference |
| Migration.StepFrame | webtool/api_explorer.py:331-367 | one successful iteration removes its label (a deleted one for good), may add only the label it lands on, and leaves every other label present or absent as it was |
| Migration.WalkDropsLabel | webtool/api_explorer.py:329-334 | once a successful walk has passed a deleted label onto which no remaining label is renamed, that label is gone |
| Migration.WalkInventsNoLabels | webtool/api_explorer.py:329-367 | every label of a successful walk's result was pending at the start or is where some old label that is not deleted lands |
| Migration.MigrationInventsNoLabels | webtool/api_explorer.py:329-367 | whenever the migration of a record succeeds, every label of the result is where some old label that is not deleted lands |
| Migration.MigrationDropsDeletedFields | webtool/api_explorer.py:332-334 | whenever the migration of a record succeeds, a deleted field's label is absent unless another label of the record is renamed onto it; a Clean record always succeeds |
| Migration.MigrationMovesRenamedEntry | webtool/api_explorer.py:337-339 | a renamed entry moves to its new label with its value intact and the old label disappears |
| Migration.MigrationKeepsUntouchedEntry | webtool/api_explorer.py:329-342 | an entry that is not deleted, renamed or option-bearing keeps its label and value |
| Migration.MigrationRewritesSingleOption | webtool/api_explorer.py:346-354 | a single option value is removed if its option was deleted, relabelled if renamed, and kept otherwise |
| Migration.MigrationRewritesOptionList | webtool/api_explorer.py:356-367 | a list value keeps its surviving options, renamed, in order |
| Migration.RenameSwapLosesValue | webtool/api_explorer.py:337-339 | renames A to B and B to A on `{A: 1, B: 2}` give `{A: 1}`: B's value is lost |
| Migration.DeleteThenRenameOntoKeepsValue | webtool/api_explorer.py:331-339 | deleting "A" and renaming "B" to "A" turns `{A: 1, B: 2}` into `{A: 2}`: the deletion runs first, then "B"'s value lands on "A" |
| Migration.RenameOntoThenDeleteLosesValue | webtool/api_explorer.py:331-339 | the same save turns `{B: 2, A: 1}` into `{}`: "B"'s value overwrites "A", and the deletion of "A" then removes it |
| Migration.RenameChainRaises | webtool/api_explorer.py:337-350 | a chain A to B to C, where B is an option field and the moved value is deleted, reaches a vanished label and raises |
| Migration.MigrateStore | webtool/api_explorer.py:327-371 | the store migration succeeds iff every post's walk does; a post is kept iff its migrated record is non-empty, and then holds exactly that record; the result has no empty record and no new post |
| Migration.StoreDropsDeletedFields | webtool/api_explorer.py:327-371 | whenever the store migration succeeds, every post none of whose own labels is renamed onto a deleted field's label no longer holds that label, whatever the other posts hold |
| Migration.StoreMigrationMatchesReference | webtool/api_explorer.py:327-371 | for Clean records a post stays iff its reference record is non-empty, and then holds the reference |
| ListLoop.RemoveFirst | webtool/api_explorer.py:363 | `list.remove` cuts out the first occurrence of the element and keeps the others in order |
| ListLoop.LoopAsWritten | webtool/api_explorer.py:359-367 | with no deleted or renamed option ahead of the iteration point, the loop leaves the stored value as it is |
| ListLoop.UntouchedListAgrees | webtool/api_explorer.py:356-367 | when no option of the list is touched, the loop as written and the described behaviour both keep the list |
| ListLoop.DeletionSkipsNextElement | webtool/api_explorer.py:359-363 | deleting both options of `["Sports", "Culture"]` leaves `["Culture"]` as written, where `[]` is intended |
| ListLoop.RenameCollapsesList | webtool/api_explorer.py:365-367 | renaming `a` to `z` in `["a", "b"]` stores the string `"z"` as written, where `["z", "b"]` is intended |
| ListLoop.RemovalAfterRenameRaises | webtool/api_explorer.py:359-367 | a rename followed by a deletion in one list raises as written, where `["z"]` is intended |
| ListLoop.DeletionHidesRename | webtool/api_explorer.py:359-367 | deleting `b` and renaming `c` to `z` in `["a", "b", "c"]` leaves `["a", "c"]` as written, where `["a", "z"]` is intended |
| Merge.MergeInto | webtool/api_explorer.py:414-417 | a submitted post is present iff its record is non-empty and then holds exactly that record; other posts are untouched |
| Merge.SaveAnnotations | webtool/api_explorer.py:405-424 | with a non-empty stored value, what is written is the merge of the payload into it; with nothing stored, the payload verbatim; the empty string iff no post remains; merging into a store without empty records yields one without them |
| Merge.MergeIdempotent | webtool/api_explorer.py:414-417 | merging the same payload twice equals merging it once |
| Merge.SaveAnnotationsIdempotent | webtool/api_explorer.py:405-424 | saving a payload without empty records twice equals saving it once |
| Merge.EmptyRecordSurvivesFirstSave | webtool/api_explorer.py:407-424 | with nothing stored, an empty submitted record is written as it came; saving it again writes the empty string |
| Merge.ClearingOnlyRecordRemovesPost | webtool/api_explorer.py:414-422 | clearing the only post's record writes the empty string |
| Merge.FirstSaveKeepsPayload | webtool/api_explorer.py:405-424 | example: the payload `{"item1": {"Q1": "no"}}` saved into a stored `{}` or with nothing stored is written as it came |
| Reconcile.SaveAnnotationFields | webtool/api_explorer.py:252-377 | no stored schema or no annotations, or no change, writes nothing; a diff failure is the save's failure; past those guards the save fails on a vanished label iff some post's walk raises, and otherwise writes the encoding of the migrated store; a written store has no empty record, no new post, and is the empty string iff empty |
| Reconcile.UnchangedSchemaKeepsAnnotations | webtool/api_explorer.py:273-325 | re-submitting the stored fields, with or without new ones, writes nothing when each stored field's option ids are distinct |
| Reconcile.SaveMatchesReference | webtool/api_explorer.py:325-377 | for Clean records the save succeeds and writes, post by post, the reference migration |
| Reconcile.TextToDropdownKeepsAnnotations | webtool/api_explorer.py:282-302 | retyping text to dropdown under the same label writes nothing |
| Reconcile.DropdownToCheckboxDeletesAnnotations | webtool/api_explorer.py:282-377 | retyping dropdown to checkbox deletes the field's data, drops the emptied post, and writes the empty string |
| Reconcile.RenamedOptionFieldKeepsDeletedOption | webtool/api_explorer.py:290-354 | renaming Topic to Subject while deleting option Sports moves both posts' values unchanged, because `option_fields` holds the old label |

## Left out

- HTTP routing, rate limiting, the 404 responses (lines 229-242, 396-397) and `request.get_json()` are not modelled. The payloads come in as values.
- Database reads and writes are not modelled. The stored schema and the stored column value are parameters, and the value to be written is the result.
- The unconditional schema write at line 246 is not modelled. Its consequence is stated: on a failure the annotations are left as they were.
- The two writes are not atomic, and concurrent requests can interleave. Concurrency is outside a functional model.
- JSON parsing and serialisation are not modelled: `Blob` stands for the column value. The order of posts in the written JSON is not modelled, since each post is migrated on its own.
- Annotation values other than a string or a list of strings are not modelled. Numbers, null and nested objects are skipped by the type checks of lines 346 and 357.
- Malformed schema entries are not modelled: a missing `label` or `type` key, or an option object with no key (which makes lines 305 and 310 raise `IndexError`).
- Line 306 repeats line 305 and has no effect of its own.
- The `Fault.VanishedLabel` failure does not record which post or label raised, because nothing downstream reads it.
- Migration.MigrateRecordMatchesReference: proved only for Clean records. Outside Clean the result depends on the snapshot order. The two concrete lemmas exhibit that dependence instead of a general statement. What holds on every successful walk is stated by `Migration.MigrationDropsDeletedFields` and `Migration.MigrationInventsNoLabels`.
- Migration.MigrationMovesRenamedEntry, Migration.MigrationKeepsUntouchedEntry, Migration.MigrationRewritesSingleOption, Migration.MigrationRewritesOptionList, Migration.StoreMigrationMatchesReference and Reconcile.SaveMatchesReference: stated for Clean records only, because they are read off the reference.
- The rest of `webtool/api_explorer.py` (post listing, templates, custom CSS and fields) is not part of this model. Neither is `datasources/tiktok/search_tiktok.py`.

## Findings

| source | as written | input that shows it | evidently intended | confidence | as-written member | corrected member |
|---|---|---|---|---|---|---|
| webtool/api_explorer.py:359-367 | the checkbox loop removes elements from the list it is iterating over, so the element after each removed one is skipped. A rename assigns the single renamed label to the whole entry. | `["Sports", "Culture"]` with both deleted stays `["Culture"]` (ListLoop.DeletionSkipsNextElement). `["a", "b"]` with `a` renamed to `z` becomes `"z"` (ListLoop.RenameCollapsesList). | every deleted option removed and each remaining option renamed in place, order kept, as the comments of lines 361 and 365 say | high (not executed) | ListLoop.ListAsWritten | Migration.RewriteList |

=== FILE: annotations.dfy ===
/** Stored annotation values: one record per post, keyed by field LABEL.
    A record is a Python dict, so it keeps insertion order: it is modelled
    as a sequence of entries with pairwise distinct labels, with the dict's
    own update rules (assigning an existing key keeps its position, a new
    key goes to the end, deleting a key closes the gap). */
module Annotations {
  import opened Common

  /** An annotation value: one option label or free text, or a list of
      option labels (checkboxes). */
  datatype Value = Single(text: string) | Multi(items: seq<string>)

  datatype Entry = Entry(fieldLabel: string, value: Value)

  predicate DistinctLabels(r: seq<Entry>) {
    forall i, j | 0 <= i < j < |r| :: r[i].fieldLabel != r[j].fieldLabel
  }

  /** One post's annotations, in dict order. */
  type Record = r: seq<Entry> | DistinctLabels(r) witness []

  /** All posts' annotations of one dataset, keyed by post id. */
  type Store = map<string, Record>

  /** The record read as a plain map from label to value. */
  function View(r: Record): (m: map<string, Value>)
    ensures forall i | 0 <= i < |r| :: r[i].fieldLabel in m && m[r[i].fieldLabel] == r[i].value
  {
    if r == [] then map[] else View(r[1..])[r[0].fieldLabel := r[0].value]
  }

  /** Every label of the view is the label of some entry. */
  lemma ViewLabel(r: Record, l: string)
    requires l in View(r)
    ensures exists i | 0 <= i < |r| :: r[i].fieldLabel == l
  {
    if r[0].fieldLabel != l {
      ViewLabel(r[1..], l);
      var i :| 0 <= i < |r[1..]| && r[1..][i].fieldLabel == l;
      assert r[i + 1].fieldLabel == l;
    }
  }

  /** The labels of a record in dict order: the snapshot the migration
      walks (`list(annotations[post_id].keys())`). */
  function Snapshot(r: Record): (ks: seq<string>)
    ensures |ks| == |r|
    ensures forall i | 0 <= i < |r| :: ks[i] == r[i].fieldLabel
  {
    if r == [] then [] else [r[0].fieldLabel] + Snapshot(r[1..])
  }

  /** The snapshot lists each label of the record exactly once. */
  lemma SnapshotLabels(r: Record)
    ensures forall i, j | 0 <= i < j < |Snapshot(r)| :: Snapshot(r)[i] != Snapshot(r)[j]
    ensures forall k :: k in Snapshot(r) <==> k in View(r)
  {
    var ks := Snapshot(r);
    forall k | k in View(r) ensures k in ks {
      ViewLabel(r, k);
    }
  }

  /** Prepending an entry whose label the rest lacks keeps labels distinct. */
  lemma ConsView(e: Entry, rest: Record)
    requires e.fieldLabel !in View(rest)
    ensures DistinctLabels([e] + rest)
    ensures View([e] + rest) == View(rest)[e.fieldLabel := e.value]
  {
    var r: seq<Entry> := [e] + rest;
    forall i, j | 0 <= i < j < |r|
      ensures r[i].fieldLabel != r[j].fieldLabel
    {
      if i == 0 {
        assert r[j] == rest[j - 1];
      } else {
        assert r[i] == rest[i - 1] && r[j] == rest[j - 1];
      }
    }
    assert r[1..] == rest;
  }

  /** The head's label does not occur again in the tail. */
  lemma HeadNotInTail(r: Record)
    requires r != []
    ensures r[0].fieldLabel !in View(r[1..])
  {
    if r[0].fieldLabel in View(r[1..]) {
      ViewLabel(r[1..], r[0].fieldLabel);
    }
  }

  /** `del d[k]` / `d.pop(k)`: the entry for `k` goes, the others keep
      their order. */
  function Delete(r: Record, k: string): (r': Record)
    ensures View(r') == View(r) - {k}
  {
    if r == [] then []
    else
      HeadNotInTail(r);
      if r[0].fieldLabel == k then r[1..]
      else
        var rest := Delete(r[1..], k);
        ConsView(r[0], rest);
        [r[0]] + rest
  }

  /** Deletion keeps the order of the other entries: an absent label
      leaves the record as it is, and a present label's entry is cut out
      where it stands. */
  lemma {:induction false} DeleteCutsOut(r: Record, k: string)
    ensures k !in View(r) ==> Delete(r, k) == r
    ensures k in View(r) ==>
      exists i | 0 <= i < |r| :: r[i].fieldLabel == k && Delete(r, k) == r[..i] + r[i + 1..]
  {
    if r != [] {
      if r[0].fieldLabel == k {
        assert r[..0] + r[1..] == r[1..];
      } else {
        DeleteCutsOut(r[1..], k);
        if k in View(r[1..]) {
          var i :| 0 <= i < |r[1..]| && r[1..][i].fieldLabel == k && Delete(r[1..], k) == r[1..][..i] + r[1..][i + 1..];
          CutOut(r, i);
          assert r[i + 1].fieldLabel == k;
        }
      }
    }
  }

  /** Cutting the entry at position `i` out of the tail is cutting the
      entry at position `i + 1` out of the record. */
  lemma CutOut(r: seq<Entry>, i: nat)
    requires i + 1 < |r|
    ensures [r[0]] + (r[1..][..i] + r[1..][i + 1..]) == r[..i + 1] + r[i + 2..]
  {
    assert r[..i + 1] == [r[0]] + r[1..][..i];
    assert r[i + 2..] == r[1..][i + 1..];
  }

  /** `d[k] = v`: an existing entry is overwritten in place, a new one is
      appended. */
  function Put(r: Record, k: string, v: Value): (r': Record)
    ensures View(r') == View(r)[k := v]
  {
    if r == [] then [Entry(k, v)]
    else
      HeadNotInTail(r);
      if r[0].fieldLabel == k then
        ConsView(Entry(k, v), r[1..]);
        [Entry(k, v)] + r[1..]
      else
        var rest := Put(r[1..], k, v);
        ConsView(r[0], rest);
        [r[0]] + rest
  }

  /** Assignment keeps the key order: an existing label stays where it
      is, a new one goes last. */
  lemma {:induction false} PutKeepsOrder(r: Record, k: string, v: Value)
    ensures k in View(r) ==> Snapshot(Put(r, k, v)) == Snapshot(r)
    ensures k !in View(r) ==> Snapshot(Put(r, k, v)) == Snapshot(r) + [k]
  {
    if r != [] && r[0].fieldLabel != k {
      PutKeepsOrder(r[1..], k, v);
      assert Snapshot(r) == [r[0].fieldLabel] + Snapshot(r[1..]);
    }
  }

  /** A record has no entries iff its view is empty. */
  lemma EmptyRecord(r: Record)
    ensures |r| == 0 <==> View(r) == map[]
  {
    if |r| > 0 {
      assert r[0].fieldLabel in View(r);
    }
  }

  /** The serialized form of a store as the `annotations` column holds
      it: the empty string (or no row at all) versus a JSON document. */
  datatype Blob = Blank | Json(store: Store)

  /** The column value written for a store: an empty store is written as
      the empty string, never as an empty document. */
  function Encode(s: Store): (b: Blob)
    ensures b.Blank? <==> |s| == 0
    ensures Decode(b) == s
  {
    if |s| == 0 then Blank else Json(s)
  }

  /** The store a column value stands for. */
  function Decode(b: Blob): Store {
    match b
    case Blank => map[]
    case Json(s) => s
  }

  /** No post is mapped to a record without entries. */
  predicate NoEmptyRecords(s: Store) {
    forall p | p in s :: |s[p]| > 0
  }
}

=== FILE: common.dfy ===
/** Small failure-carrying wrappers shared by the reconciliation modules. */
module Common {

  /** A value that may be absent. */
  datatype Option<+T> = None | Some(value: T)

  /** Either a computed value or the reason the computation stopped. */
  datatype Result<+T, +E> = Success(value: T) | Failure(error: E)

  /** The ways a schema save can stop with an exception after the new
      schema has already been written. */
  datatype Fault =
    /** The new definition of an option-bearing field has no `options` key. */
    | MissingNewOptions(fieldId: string)
    /** A label taken from the record snapshot is no longer in the record
        when the walk reaches it (a Python `KeyError`). */
    | VanishedLabel
}

=== FILE: delta.dfy ===
/** The schema diff of `save_annotation_fields`: walking the stored
    fields in order, it collects which labels lose their data, which labels
    are renamed, and which option labels are deleted or renamed. The four
    change collections and `option_fields` are shared by all fields, so a
    later field overrides an earlier one on the same key. */
module Delta {
  import opened Common
  import opened Schema

  datatype ChangeSet = ChangeSet(
    fieldsToDelete: set<string>,
    labelsToUpdate: map<string, string>,
    optionsToDelete: set<string>,
    optionsToUpdate: map<string, string>,
    /** Option-bearing fields, by their label in the STORED schema. */
    optionFields: set<string>)

  const NoChanges := ChangeSet({}, map[], {}, map[], {})

  /** The guard of line 325: `option_fields` alone does not trigger a
      rewrite. */
  predicate HasChanges(cs: ChangeSet) {
    || cs.fieldsToDelete != {}
    || cs.labelsToUpdate != map[]
    || cs.optionsToDelete != {}
    || cs.optionsToUpdate != map[]
  }

  /** Adding the contribution of a later field: sets grow, and on a shared
      key of a map the later field's entry replaces the earlier one. */
  function Combine(acc: ChangeSet, d: ChangeSet): ChangeSet {
    ChangeSet(
      acc.fieldsToDelete + d.fieldsToDelete,
      acc.labelsToUpdate + d.labelsToUpdate,
      acc.optionsToDelete + d.optionsToDelete,
      acc.optionsToUpdate + d.optionsToUpdate,
      acc.optionFields + d.optionFields)
  }

  /** An old option whose id survives under a different label. */
  predicate Relabelled(c: Choice, next: seq<Choice>) {
    c.optionId in ChoiceIds(next) && FirstLabel(next, c.optionId) != c.optionLabel
  }

  /** The option diff of one field (lines 309-322). */
  datatype OptionDelta = OptionDelta(deleted: set<string>, renamed: map<string, string>)

  function DiffOptions(prior: seq<Choice>, next: seq<Choice>): OptionDelta {
    if prior == [] then OptionDelta({}, map[])
    else
      var d := DiffOptions(prior[..|prior| - 1], next);
      var c := prior[|prior| - 1];
      if c.optionId !in ChoiceIds(next) then d.(deleted := d.deleted + {c.optionLabel})
      else
        var l := FirstLabel(next, c.optionId);
        if c.optionLabel != l then d.(renamed := d.renamed[c.optionLabel := l]) else d
  }

  /** An old option label is deleted iff some old option with that label
      lost its id. */
  lemma {:induction false} DeletedOptions(prior: seq<Choice>, next: seq<Choice>, l: string)
    ensures l in DiffOptions(prior, next).deleted <==>
      exists i | 0 <= i < |prior| :: prior[i].optionLabel == l && prior[i].optionId !in ChoiceIds(next)
  {
    if prior != [] {
      var front := prior[..|prior| - 1];
      DeletedOptions(front, next, l);
      assert forall i | 0 <= i < |front| :: front[i] == prior[i];
    }
  }

  /** An old option label is renamed iff some old option with that label
      kept its id under another label. */
  lemma {:induction false} RenamedOptions(prior: seq<Choice>, next: seq<Choice>, l: string)
    ensures l in DiffOptions(prior, next).renamed <==>
      exists i | 0 <= i < |prior| :: prior[i].optionLabel == l && Relabelled(prior[i], next)
  {
    if prior != [] {
      var front := prior[..|prior| - 1];
      RenamedOptions(front, next, l);
      assert forall i | 0 <= i < |front| :: front[i] == prior[i];
    }
  }

  /** A renamed option label maps to the new label of the LAST old option
      that carries it and was relabelled. */
  lemma {:induction false} RenamedOptionTarget(prior: seq<Choice>, next: seq<Choice>, l: string)
    requires l in DiffOptions(prior, next).renamed
    ensures exists i | 0 <= i < |prior| ::
      && prior[i].optionLabel == l && Relabelled(prior[i], next)
      && DiffOptions(prior, next).renamed[l] == FirstLabel(next, prior[i].optionId)
      && forall j | i < j < |prior| :: !(prior[j].optionLabel == l && Relabelled(prior[j], next))
  {
    var front := prior[..|prior| - 1];
    var c := prior[|prior| - 1];
    assert forall i | 0 <= i < |front| :: front[i] == prior[i];
    if c.optionLabel == l && Relabelled(c, next) {
      assert prior[|prior| - 1] == c;
    } else {
      RenamedOptionTarget(front, next, l);
    }
  }

  /** The field's data is dropped: its id is gone from the new schema
      (line 276), or it was retyped and neither type is text-like
      (lines 284-286). */
  predicate Dropped(e: FieldEntry, nf: NewSchema) {
    || e.id !in nf
    || (e.field.kind != nf[e.id].kind && !IsTextLike(e.field.kind) && !IsTextLike(nf[e.id].kind))
  }

  /** The field survives under another label (lines 291-295). */
  predicate Renamed(e: FieldEntry, nf: NewSchema) {
    !Dropped(e, nf) && e.field.fieldLabel != nf[e.id].fieldLabel
  }

  /** The field's options are diffed (lines 298-300). */
  predicate CarriesOptions(e: FieldEntry, nf: NewSchema) {
    !Dropped(e, nf) && BearsOptions(nf[e.id].kind) && e.field.options.Some?
  }

  /** Diffing the options would read the missing `options` key of the new
      definition (line 303). */
  predicate Faults(e: FieldEntry, nf: NewSchema) {
    CarriesOptions(e, nf) && nf[e.id].options.None?
  }

  /** What one stored field contributes to the change set (lines 273-322). */
  function FieldDelta(e: FieldEntry, nf: NewSchema): (r: Result<ChangeSet, Fault>)
    ensures r.Failure? <==> Faults(e, nf)
    // a field whose id is gone contributes its label for deletion and nothing else
    ensures e.id !in nf ==> r == Success(NoChanges.(fieldsToDelete := {e.field.fieldLabel}))
    // so does a retype unless one side is text-like
    ensures Dropped(e, nf) ==> r == Success(NoChanges.(fieldsToDelete := {e.field.fieldLabel}))
    // otherwise nothing is deleted, and the old label maps to the new one iff they differ
    ensures !Dropped(e, nf) && r.Success? ==>
      && r.value.fieldsToDelete == {}
      && (Renamed(e, nf) ==> r.value.labelsToUpdate == map[e.field.fieldLabel := nf[e.id].fieldLabel])
      && (!Renamed(e, nf) ==> r.value.labelsToUpdate == map[])
    // the options are diffed exactly for option-bearing fields, filed under the OLD label
    ensures r.Success? && CarriesOptions(e, nf) ==>
      && r.value.optionFields == {e.field.fieldLabel}
      && r.value.optionsToDelete == DiffOptions(e.field.options.value, nf[e.id].options.value).deleted
      && r.value.optionsToUpdate == DiffOptions(e.field.options.value, nf[e.id].options.value).renamed
    ensures r.Success? && !CarriesOptions(e, nf) ==>
      r.value.optionFields == {} && r.value.optionsToDelete == {} && r.value.optionsToUpdate == map[]
  {
    var name := e.field.fieldLabel;
    if e.id !in nf then Success(NoChanges.(fieldsToDelete := {name}))
    else
      var next := nf[e.id];
      if e.field.kind != next.kind && !IsTextLike(e.field.kind) && !IsTextLike(next.kind) then
        Success(NoChanges.(fieldsToDelete := {name}))
      else
        var renames := if name != next.fieldLabel then map[name := next.fieldLabel] else map[];
        if BearsOptions(next.kind) && e.field.options.Some? then
          if next.options.None? then Failure(MissingNewOptions(e.id))
          else
            var d := DiffOptions(e.field.options.value, next.options.value);
            Success(ChangeSet({}, renames, d.deleted, d.renamed, {name}))
        else Success(NoChanges.(labelsToUpdate := renames))
  }

  /** The change set of a whole schema edit: the stored fields in order,
      each adding its contribution on top of the earlier ones. */
  function ComputeChangeSet(prior: OldSchema, nf: NewSchema): Result<ChangeSet, Fault> {
    if prior == [] then Success(NoChanges)
    else
      match ComputeChangeSet(prior[..|prior| - 1], nf)
      case Failure(err) => Failure(err)
      case Success(acc) =>
        match FieldDelta(prior[|prior| - 1], nf)
        case Failure(err) => Failure(err)
        case Success(d) => Success(Combine(acc, d))
  }

  /** The diff fails iff some stored option-bearing field has no options
      in its new definition. */
  lemma {:induction false} ChangeSetFails(prior: OldSchema, nf: NewSchema)
    ensures ComputeChangeSet(prior, nf).Failure? <==>
      exists i | 0 <= i < |prior| :: Faults(prior[i], nf)
  {
    if prior != [] {
      var front := prior[..|prior| - 1];
      ChangeSetFails(front, nf);
      assert forall i | 0 <= i < |front| :: front[i] == prior[i];
    }
  }

  /** A label is in `fields_to_delete` iff some stored field with that
      label is dropped. */
  lemma {:induction false} DeletedFields(prior: OldSchema, nf: NewSchema, l: string)
    requires ComputeChangeSet(prior, nf).Success?
    ensures l in ComputeChangeSet(prior, nf).value.fieldsToDelete <==>
      exists i | 0 <= i < |prior| :: prior[i].field.fieldLabel == l && Dropped(prior[i], nf)
  {
    if prior != [] {
      var front := prior[..|prior| - 1];
      DeletedFields(front, nf, l);
      assert forall i | 0 <= i < |front| :: front[i] == prior[i];
    }
  }

  /** A label is a key of `labels_to_update` iff some stored field with
      that label survives under another label. */
  lemma {:induction false} RenamedFields(prior: OldSchema, nf: NewSchema, l: string)
    requires ComputeChangeSet(prior, nf).Success?
    ensures l in ComputeChangeSet(prior, nf).value.labelsToUpdate <==>
      exists i | 0 <= i < |prior| :: prior[i].field.fieldLabel == l && Renamed(prior[i], nf)
  {
    if prior != [] {
      var front := prior[..|prior| - 1];
      RenamedFields(front, nf, l);
      assert forall i | 0 <= i < |front| :: front[i] == prior[i];
    }
  }

  /** In a schema with distinct labels, a renamed field's old label maps
      to its new label. */
  lemma {:induction false} RenamedFieldTarget(prior: OldSchema, nf: NewSchema, i: nat)
    requires ComputeChangeSet(prior, nf).Success?
    requires DistinctFieldLabels(prior)
    requires i < |prior| && Renamed(prior[i], nf)
    ensures prior[i].field.fieldLabel in ComputeChangeSet(prior, nf).value.labelsToUpdate
    ensures ComputeChangeSet(prior, nf).value.labelsToUpdate[prior[i].field.fieldLabel]
      == nf[prior[i].id].fieldLabel
  {
    var front := prior[..|prior| - 1];
    var last := prior[|prior| - 1];
    assert forall k | 0 <= k < |front| :: front[k] == prior[k];
    var d := FieldDelta(last, nf).value;
    if i < |front| {
      assert DistinctFieldLabels(front);
      RenamedFieldTarget(front, nf, i);
      var acc := ComputeChangeSet(front, nf).value;
      assert prior[i].field.fieldLabel != last.field.fieldLabel;
      assert prior[i].field.fieldLabel !in d.labelsToUpdate;
      assert ComputeChangeSet(prior, nf).value.labelsToUpdate == acc.labelsToUpdate + d.labelsToUpdate;
    }
  }

  /** A label is in `option_fields` iff some stored field with that
      (old) label has its options diffed. */
  lemma {:induction false} OptionBearingFields(prior: OldSchema, nf: NewSchema, l: string)
    requires ComputeChangeSet(prior, nf).Success?
    ensures l in ComputeChangeSet(prior, nf).value.optionFields <==>
      exists i | 0 <= i < |prior| :: prior[i].field.fieldLabel == l && CarriesOptions(prior[i], nf)
  {
    if prior != [] {
      var front := prior[..|prior| - 1];
      OptionBearingFields(front, nf, l);
      assert forall i | 0 <= i < |front| :: front[i] == prior[i];
    }
  }

  /** The option diff of one option-bearing field, which the diff only
      reaches when the new definition has options. */
  function FieldOptions(e: FieldEntry, nf: NewSchema): OptionDelta
    requires CarriesOptions(e, nf) && !Faults(e, nf)
  {
    DiffOptions(e.field.options.value, nf[e.id].options.value)
  }

  /** An option label is in `options_to_delete` iff some option-bearing
      field lost an option with that label; the set is shared, so it
      applies to every option-bearing field. */
  lemma {:induction false} DeletedOptionLabels(prior: OldSchema, nf: NewSchema, l: string)
    requires ComputeChangeSet(prior, nf).Success?
    ensures l in ComputeChangeSet(prior, nf).value.optionsToDelete <==>
      exists i | 0 <= i < |prior| ::
        CarriesOptions(prior[i], nf) && !Faults(prior[i], nf) && l in FieldOptions(prior[i], nf).deleted
  {
    if prior != [] {
      var front := prior[..|prior| - 1];
      ChangeSetFails(prior, nf);
      DeletedOptionLabels(front, nf, l);
      assert forall i | 0 <= i < |front| :: front[i] == prior[i];
    }
  }

  /** An option label is a key of `options_to_update` iff some
      option-bearing field relabelled an option with that label. */
  lemma {:induction false} RenamedOptionLabels(prior: OldSchema, nf: NewSchema, l: string)
    requires ComputeChangeSet(prior, nf).Success?
    ensures l in ComputeChangeSet(prior, nf).value.optionsToUpdate <==>
      exists i | 0 <= i < |prior| ::
        CarriesOptions(prior[i], nf) && !Faults(prior[i], nf) && l in FieldOptions(prior[i], nf).renamed
  {
    if prior != [] {
      var front := prior[..|prior| - 1];
      ChangeSetFails(prior, nf);
      RenamedOptionLabels(front, nf, l);
      assert forall i | 0 <= i < |front| :: front[i] == prior[i];
    }
  }

  /** The field relabels option label `l`. */
  predicate RelabelsOption(e: FieldEntry, nf: NewSchema, l: string) {
    CarriesOptions(e, nf) && !Faults(e, nf) && l in FieldOptions(e, nf).renamed
  }

  /** A relabelled option label maps to its new label in the LAST
      option-bearing field that relabels it: a later field overwrites an
      earlier one's entry, which then applies to both fields' values. */
  lemma {:induction false} RenamedOptionLabelTarget(prior: OldSchema, nf: NewSchema, l: string, i: nat)
    requires ComputeChangeSet(prior, nf).Success?
    requires i < |prior| && RelabelsOption(prior[i], nf, l)
    requires forall j | i < j < |prior| :: !RelabelsOption(prior[j], nf, l)
    ensures l in ComputeChangeSet(prior, nf).value.optionsToUpdate
    ensures ComputeChangeSet(prior, nf).value.optionsToUpdate[l] == FieldOptions(prior[i], nf).renamed[l]
  {
    var front := prior[..|prior| - 1];
    var last := prior[|prior| - 1];
    var acc := ComputeChangeSet(front, nf).value;
    var d := FieldDelta(last, nf).value;
    assert ComputeChangeSet(prior, nf).value.optionsToUpdate == acc.optionsToUpdate + d.optionsToUpdate;
    if i < |front| {
      assert forall k | 0 <= k < |front| :: front[k] == prior[k];
      assert !RelabelsOption(last, nf, l);
      assert l !in d.optionsToUpdate;
      RenamedOptionLabelTarget(front, nf, l, i);
    }
  }

  /** Diffing an option list with distinct ids against itself finds
      nothing. */
  lemma DiffOptionsSelf(opts: seq<Choice>)
    requires DistinctChoiceIds(opts)
    ensures DiffOptions(opts, opts) == OptionDelta({}, map[])
  {
    var d := DiffOptions(opts, opts);
    forall l
      ensures l !in d.deleted && l !in d.renamed
    {
      DeletedOptions(opts, opts, l);
      RenamedOptions(opts, opts, l);
      forall i | 0 <= i < |opts|
        ensures !Relabelled(opts[i], opts)
      {
        var f := FirstLabel(opts, opts[i].optionId);
        var k :| 0 <= k < |opts| && opts[k].optionId == opts[i].optionId && opts[k].optionLabel == f
          && forall j | 0 <= j < k :: opts[j].optionId != opts[i].optionId;
        assert k == i;
      }
    }
    assert d.deleted == {};
    assert d.renamed == map[];
  }

  /** Saving a schema in which every stored field reappears unchanged
      (new fields may be added) changes nothing: the diff succeeds and all
      four change collections are empty. */
  lemma {:induction false} UnchangedFieldsHaveNoChanges(prior: OldSchema, nf: NewSchema)
    requires forall i | 0 <= i < |prior| :: prior[i].id in nf && nf[prior[i].id] == prior[i].field
    requires forall i | 0 <= i < |prior| && prior[i].field.options.Some? ::
      DistinctChoiceIds(prior[i].field.options.value)
    ensures ComputeChangeSet(prior, nf).Success?
    ensures !HasChanges(ComputeChangeSet(prior, nf).value)
  {
    if prior != [] {
      var front := prior[..|prior| - 1];
      var last := prior[|prior| - 1];
      assert forall k | 0 <= k < |front| :: front[k] == prior[k];
      UnchangedFieldsHaveNoChanges(front, nf);
      if CarriesOptions(last, nf) {
        DiffOptionsSelf(last.field.options.value);
      }
    }
  }
}

=== FILE: list_loop.dfy ===
/** The checkbox-list branch of the migration (lines 357-367) as it is
    written, set beside the behaviour its comments describe (modelled by
    Migration.RewriteList, which the rest of the model uses).

    As written, the loop iterates over the very list it removes elements
    from, so the element after each removed one is skipped; and an option
    rename assigns the single renamed label to the entry, replacing the
    whole list by a string, after which a further removal calls `remove`
    on a string and raises. */
module ListLoop {
  import opened Common
  import opened Annotations
  import opened Migration

  /** `list.remove(x)`: the first occurrence of `x` goes, the other
      elements keep their order. */
  function RemoveFirst(xs: seq<string>, x: string): (ys: seq<string>)
    requires x in xs
    ensures |ys| == |xs| - 1
    ensures multiset(ys) == multiset(xs) - multiset{x}
    ensures exists i | 0 <= i < |xs| :: xs[i] == x && x !in xs[..i] && ys == xs[..i] + xs[i + 1..]
  {
    if xs[0] == x then
      assert xs == [x] + xs[1..];
      assert xs[..0] + xs[1..] == xs[1..];
      xs[1..]
    else
      var rest := RemoveFirst(xs[1..], x);
      assert xs == [xs[0]] + xs[1..];
      FirstCut(xs, x, rest);
      [xs[0]] + rest
  }

  /** Removing the first `x` from the tail, when the head is not `x`,
      removes the first `x` from the list. */
  lemma FirstCut(xs: seq<string>, x: string, rest: seq<string>)
    requires xs != [] && xs[0] != x
    requires exists i | 0 <= i < |xs[1..]| :: xs[1..][i] == x && x !in xs[1..][..i] && rest == xs[1..][..i] + xs[1..][i + 1..]
    ensures exists i | 0 <= i < |xs| :: xs[i] == x && x !in xs[..i] && [xs[0]] + rest == xs[..i] + xs[i + 1..]
  {
    var i :| 0 <= i < |xs[1..]| && xs[1..][i] == x && x !in xs[1..][..i] && rest == xs[1..][..i] + xs[1..][i + 1..];
    assert xs[..i + 1] == [xs[0]] + xs[1..][..i];
    assert xs[i + 2..] == xs[1..][i + 1..];
    assert xs[i + 1] == x;
  }

  /** The loop from Python's hidden iteration index `i` on. `lst` is the
      list object being iterated, which is also the stored value until a
      rename stores a string instead (`replaced`). `None`: the loop
      raised. */
  function LoopAsWritten(
    lst: seq<string>, i: nat, replaced: Option<string>, gone: set<string>, upd: map<string, string>)
    : (r: Option<Value>)
    // with no deleted or renamed element ahead, the stored value is what it was
    ensures (forall j | i <= j < |lst| :: lst[j] !in gone && lst[j] !in upd) ==>
      r == Some(if replaced.Some? then Single(replaced.value) else Multi(lst))
    decreases |lst| - i
  {
    if i >= |lst| then Some(if replaced.Some? then Single(replaced.value) else Multi(lst))
    else
      var x := lst[i];
      if x in gone then
        if replaced.Some? then None
        else LoopAsWritten(RemoveFirst(lst, x), i + 1, None, gone, upd)
      else if x in upd then LoopAsWritten(lst, i + 1, Some(upd[x]), gone, upd)
      else LoopAsWritten(lst, i + 1, replaced, gone, upd)
  }

  /** The stored list value after the loop as written. */
  function ListAsWritten(xs: seq<string>, gone: set<string>, upd: map<string, string>): Option<Value> {
    LoopAsWritten(xs, 0, None, gone, upd)
  }

  /** When the edit touches none of a list's options, the loop as written
      and the described behaviour agree: the list is kept. */
  lemma UntouchedListAgrees(xs: seq<string>, gone: set<string>, upd: map<string, string>)
    requires forall j | 0 <= j < |xs| :: xs[j] !in gone && xs[j] !in upd
    ensures ListAsWritten(xs, gone, upd) == Some(Multi(RewriteList(xs, gone, upd)))
  {
    assert ListAsWritten(xs, gone, upd) == Some(Multi(xs));
    RewriteUntouched(xs, gone, upd);
  }

  /** Rewriting a list none of whose options changed keeps it. */
  lemma RewriteUntouched(xs: seq<string>, gone: set<string>, upd: map<string, string>)
    requires forall j | 0 <= j < |xs| :: xs[j] !in gone && xs[j] !in upd
    ensures RewriteList(xs, gone, upd) == xs
  {
    var ys := RewriteList(xs, gone, upd);
    KeptAll(xs, gone);
    assert |ys| == |xs|;
    forall i | 0 <= i < |ys| ensures ys[i] == xs[i] {
      assert ys[i] == RenameOption(Kept(xs, gone)[i], upd);
    }
  }

  /** Filtering out nothing keeps the list. */
  lemma {:induction false} KeptAll(xs: seq<string>, gone: set<string>)
    requires forall j | 0 <= j < |xs| :: xs[j] !in gone
    ensures Kept(xs, gone) == xs
  {
    if xs != [] {
      KeptAll(xs[1..], gone);
    }
  }

  /** Two deleted options in a row: the second is skipped and survives,
      where the described behaviour removes both. */
  lemma DeletionSkipsNextElement()
    ensures ListAsWritten(["Sports", "Culture"], {"Sports", "Culture"}, map[]) == Some(Multi(["Culture"]))
    ensures RewriteList(["Sports", "Culture"], {"Sports", "Culture"}, map[]) == []
  {
    assert RemoveFirst(["Sports", "Culture"], "Sports") == ["Culture"];
    var gone := {"Sports", "Culture"};
    assert ["Sports", "Culture"][1..] == ["Culture"];
    assert ["Culture"][1..] == [];
    assert Kept(["Culture"], gone) == [];
    assert Kept(["Sports", "Culture"], gone) == [];
  }

  /** Renaming one option replaces the whole list by the renamed label,
      where the described behaviour renames that element only. */
  lemma RenameCollapsesList()
    ensures ListAsWritten(["a", "b"], {}, map["a" := "z"]) == Some(Single("z"))
    ensures RewriteList(["a", "b"], {}, map["a" := "z"]) == ["z", "b"]
  {
    KeptAll(["a", "b"], {});
  }

  /** A rename followed by a deletion in the same list raises
      (`'str' object has no attribute 'remove'`). */
  lemma RemovalAfterRenameRaises()
    ensures ListAsWritten(["a", "b"], {"b"}, map["a" := "z"]) == None
    ensures RewriteList(["a", "b"], {"b"}, map["a" := "z"]) == ["z"]
  {
    var k := Kept(["a", "b"], {"b"});
    assert Kept(["b"], {"b"}) == [];
    assert k == ["a"];
  }

  /** Deleting "b" and renaming "c" to "z" in ["a", "b", "c"]: removing
      "b" makes the loop skip "c", so the list keeps "c" unrenamed, where
      the described behaviour yields ["a", "z"]. */
  lemma DeletionHidesRename()
    ensures ListAsWritten(["a", "b", "c"], {"b"}, map["c" := "z"]) == Some(Multi(["a", "c"]))
    ensures RewriteList(["a", "b", "c"], {"b"}, map["c" := "z"]) == ["a", "z"]
  {
    HiddenRenameAsWritten();
    HiddenRenameIntended();
  }

  lemma HiddenRenameAsWritten()
    ensures ListAsWritten(["a", "b", "c"], {"b"}, map["c" := "z"]) == Some(Multi(["a", "c"]))
  {
    var xs := ["a", "b", "c"];
    HiddenRenameFromB();
    assert xs[0] == "a";
    assert LoopAsWritten(xs, 0, None, {"b"}, map["c" := "z"]) == LoopAsWritten(xs, 1, None, {"b"}, map["c" := "z"]);
  }

  /** From "b" on: "b" is removed and the index moves past "c". */
  lemma HiddenRenameFromB()
    ensures LoopAsWritten(["a", "b", "c"], 1, None, {"b"}, map["c" := "z"]) == Some(Multi(["a", "c"]))
  {
    var xs := ["a", "b", "c"];
    RemoveExample();
    assert xs[1] == "b";
    assert LoopAsWritten(["a", "c"], 2, None, {"b"}, map["c" := "z"]) == Some(Multi(["a", "c"]));
  }

  lemma HiddenRenameIntended()
    ensures RewriteList(["a", "b", "c"], {"b"}, map["c" := "z"]) == ["a", "z"]
  {
    var gone := {"b"};
    KeptExample();
    var ys := RewriteList(["a", "b", "c"], gone, map["c" := "z"]);
    assert |ys| == 2 && ys[0] == "a" && ys[1] == "z";
  }

  lemma KeptExample()
    ensures Kept(["a", "b", "c"], {"b"}) == ["a", "c"]
  {
    var xs := ["a", "b", "c"];
    assert xs[1..] == ["b", "c"] && xs[1..][1..] == ["c"] && ["c"][1..] == [];
    assert Kept([], {"b"}) == [];
    assert Kept(["c"], {"b"}) == ["c"];
    assert Kept(["b", "c"], {"b"}) == ["c"];
  }

  lemma RemoveExample()
    ensures RemoveFirst(["a", "b", "c"], "b") == ["a", "c"]
  {
    var xs := ["a", "b", "c"];
    assert xs[1..] == ["b", "c"] && ["b", "c"][1..] == ["c"];
    assert RemoveFirst(["b", "c"], "b") == ["c"];
  }
}

=== FILE: merge.dfy ===
/** The value edit of `save_annotations` (lines 405-424): the submitted
    records of some posts are merged into the stored annotations. */
module Merge {
  import opened Annotations

  /** Lines 414-417: each submitted post's record replaces the stored one
      wholesale, and a post whose submitted record is empty is removed. */
  function MergeInto(prior: Store, incoming: Store): (r: Store)
    // a submitted post is present iff its record is non-empty, and then holds exactly that record
    ensures forall p | p in incoming :: (p in r <==> |incoming[p]| > 0) && (p in r ==> r[p] == incoming[p])
    // posts not submitted are untouched
    ensures forall p | p !in incoming :: (p in r <==> p in prior) && (p in r ==> r[p] == prior[p])
  {
    map p | p in prior.Keys + incoming.Keys && (p in incoming ==> |incoming[p]| > 0) ::
      if p in incoming then incoming[p] else prior[p]
  }

  /** The column value written by a value edit. A non-empty stored value
      is merged into; with nothing stored (no row, or the empty string)
      the submitted payload is written as it came, empty records
      included. */
  function SaveAnnotations(stored: Blob, incoming: Store): (b: Blob)
    // with something stored, what is written is the merge into it
    ensures stored.Json? ==> Decode(b) == MergeInto(stored.store, incoming)
    // with nothing stored, the payload is written verbatim
    ensures stored.Blank? ==> Decode(b) == incoming
    ensures b.Blank? <==> |Decode(b)| == 0
    ensures stored.Json? ==> NoEmptyRecords(Decode(stored)) ==> NoEmptyRecords(Decode(b))
  {
    match stored
    case Json(prior) => Encode(MergeInto(prior, incoming))
    case Blank => Encode(incoming)
  }

  /** Merging the same payload twice is merging it once. */
  lemma MergeIdempotent(prior: Store, incoming: Store)
    ensures MergeInto(MergeInto(prior, incoming), incoming) == MergeInto(prior, incoming)
  {
    var once := MergeInto(prior, incoming);
    var twice := MergeInto(once, incoming);
    assert forall p :: p in twice <==> p in once;
  }

  /** Saving the same payload twice is saving it once, as long as the
      payload holds no empty record. */
  lemma SaveAnnotationsIdempotent(stored: Blob, incoming: Store)
    requires NoEmptyRecords(incoming)
    ensures SaveAnnotations(SaveAnnotations(stored, incoming), incoming) == SaveAnnotations(stored, incoming)
  {
    var once := SaveAnnotations(stored, incoming);
    match once
    case Json(s) =>
      var m := MergeInto(s, incoming);
      if stored.Json? {
        MergeIdempotent(stored.store, incoming);
      } else {
        assert forall p :: p in m <==> p in incoming;
      }
    case Blank =>
      assert forall p | p in incoming :: p in Decode(once);
  }

  /** Without a prior store, a post submitted with an empty record is
      written as it came; submitting the same payload again then removes
      it. */
  lemma EmptyRecordSurvivesFirstSave()
    ensures SaveAnnotations(Blank, map["p1" := []]) == Json(map["p1" := []])
    ensures SaveAnnotations(SaveAnnotations(Blank, map["p1" := []]), map["p1" := []]) == Blank
  {
    var m := MergeInto(map["p1" := []], map["p1" := []]);
    assert "p1" !in m;
    assert m == map[];
  }

  const Yes: Record := [Entry("Q1", Single("yes"))]
  const No: Record := [Entry("Q1", Single("no"))]

  /** Clearing a post's only record removes the post, and a store left
      with no posts is written as the empty string. */
  lemma ClearingOnlyRecordRemovesPost()
    ensures SaveAnnotations(Json(map["item1" := Yes]), map["item1" := []]) == Blank
  {
    var m := MergeInto(map["item1" := Yes], map["item1" := []]);
    assert "item1" !in m;
    assert m == map[];
  }

  /** A payload of one post with a non-empty record, saved into a stored
      empty document or with nothing stored, is written as it came. */
  lemma FirstSaveKeepsPayload()
    ensures SaveAnnotations(Json(map[]), map["item1" := No]) == Json(map["item1" := No])
    ensures SaveAnnotations(Blank, map["item1" := No]) == Json(map["item1" := No])
  {
    var m := MergeInto(map[], map["item1" := No]);
    assert m.Keys == {"item1"};
    assert m == map["item1" := No];
  }
}

=== FILE: migration.dfy ===
/** Migration of the stored annotations after a schema edit (lines
    325-377). Every post's record is walked over a snapshot of its labels,
    in dict order, applying deletions, renames and option rewrites to the
    record as it stands at that point, exactly as the loop does in place
    (checkbox lists aside: see `RewriteList` and module `ListLoop`).
    A snapshot label that has disappeared by the time the walk reaches it
    and is then looked up raises a `KeyError`: the walk returns `None`. */
module Migration {
  import opened Common
  import opened Annotations
  import opened Delta

  /** `options_to_update` applied to one option label. */
  function RenameOption(x: string, upd: map<string, string>): string {
    if x in upd then upd[x] else x
  }

  /** `ys` keeps some of the elements of `xs`, in their order. */
  predicate Subsequence(ys: seq<string>, xs: seq<string>) {
    || ys == []
    || (&& xs != []
        && ((ys[0] == xs[0] && Subsequence(ys[1..], xs[1..])) || Subsequence(ys, xs[1..])))
  }

  /** The elements of a checkbox list that are not deleted options. */
  function Kept(xs: seq<string>, gone: set<string>): (ys: seq<string>)
    // every occurrence of a surviving label is kept, no deleted label remains
    ensures forall x :: multiset(ys)[x] == if x in gone then 0 else multiset(xs)[x]
    // in their original order
    ensures Subsequence(ys, xs)
  {
    if xs == [] then []
    else if xs[0] in gone then
      assert xs == [xs[0]] + xs[1..];
      Kept(xs[1..], gone)
    else
      var rest := Kept(xs[1..], gone);
      assert xs == [xs[0]] + xs[1..];
      assert ([xs[0]] + rest)[1..] == rest;
      [xs[0]] + rest
  }

  /** The kept elements are exactly the surviving ones. */
  lemma KeptMembers(xs: seq<string>, gone: set<string>)
    ensures forall x :: x in Kept(xs, gone) <==> x in xs && x !in gone
  {
    var k := Kept(xs, gone);
    forall x ensures x in k <==> x in xs && x !in gone {
      assert x in k <==> multiset(k)[x] > 0;
      assert x in xs <==> multiset(xs)[x] > 0;
    }
  }

  /** `options_to_update` applied to each element of a list. */
  function RenameAll(xs: seq<string>, upd: map<string, string>): (ys: seq<string>)
    ensures |ys| == |xs|
    ensures forall i | 0 <= i < |xs| :: ys[i] == RenameOption(xs[i], upd)
  {
    seq(|xs|, i requires 0 <= i < |xs| => RenameOption(xs[i], upd))
  }

  /** A checkbox list after an option edit, as the comments of lines
      356-367 describe it: deleted options are removed and the remaining
      ones renamed one by one, in order. (The loop as written does
      something else; see module ListLoop.) */
  function RewriteList(xs: seq<string>, gone: set<string>, upd: map<string, string>): (ys: seq<string>)
    // every element is the renaming of a surviving element ...
    ensures forall y | y in ys :: exists x | x in xs && x !in gone :: y == RenameOption(x, upd)
    // ... and every surviving element is there, renamed
    ensures forall x | x in xs && x !in gone :: RenameOption(x, upd) in ys
    // one for one and in order: the renaming of the surviving subsequence
    ensures |ys| == |Kept(xs, gone)|
    ensures forall i | 0 <= i < |ys| :: ys[i] == RenameOption(Kept(xs, gone)[i], upd)
  {
    var k := Kept(xs, gone);
    KeptMembers(xs, gone);
    var ys := RenameAll(k, upd);
    forall y | y in ys
      ensures exists x | x in xs && x !in gone :: y == RenameOption(x, upd)
    {
      var i :| 0 <= i < |ys| && ys[i] == y;
      assert k[i] in k;
    }
    forall x | x in xs && x !in gone
      ensures RenameOption(x, upd) in ys
    {
      var i :| 0 <= i < |k| && k[i] == x;
      assert ys[i] == RenameOption(x, upd);
    }
    ys
  }

  /** The new value of an option field's entry (lines 346-367); `None`
      when the entry is deleted. */
  function RewriteValue(v: Value, cs: ChangeSet): Option<Value> {
    match v
    case Single(s) =>
      if s in cs.optionsToDelete then None
      else if s in cs.optionsToUpdate then Some(Single(cs.optionsToUpdate[s]))
      else Some(v)
    case Multi(xs) => Some(Multi(RewriteList(xs, cs.optionsToDelete, cs.optionsToUpdate)))
  }

  /** Lines 342-367 for the entry now stored under `fieldLabel`. */
  function RewriteOptions(r: Record, fieldLabel: string, cs: ChangeSet): Option<Record> {
    if fieldLabel !in cs.optionFields then Some(r)
    else if fieldLabel !in View(r) then None
    else
      match RewriteValue(View(r)[fieldLabel], cs)
      case None => Some(Delete(r, fieldLabel))
      case Some(w) => Some(Put(r, fieldLabel, w))
  }

  /** One iteration of the inner loop (lines 329-367) for snapshot label `k`. */
  function Step(r: Record, k: string, cs: ChangeSet): Option<Record> {
    if k in cs.fieldsToDelete then
      if k in View(r) then Some(Delete(r, k)) else None
    else if k in cs.labelsToUpdate then
      if k in View(r) then
        var t := cs.labelsToUpdate[k];
        RewriteOptions(Put(Delete(r, k), t, View(r)[k]), t, cs)
      else None
    else RewriteOptions(r, k, cs)
  }

  /** The inner loop over the remaining snapshot labels `ks`. */
  function Walk(r: Record, ks: seq<string>, cs: ChangeSet): Option<Record>
    decreases |ks|
  {
    if ks == [] then Some(r)
    else
      match Step(r, ks[0], cs)
      case None => None
      case Some(r') => Walk(r', ks[1..], cs)
  }

  /** One post's record after the migration. */
  function MigrateRecord(r: Record, cs: ChangeSet): Option<Record> {
    Walk(r, Snapshot(r), cs)
  }

  // ---------------------------------------------------------------------
  // An order-free reference for one record.
  //
  // When no rename lands on a label the record already holds and no two
  // of its labels are renamed to the same label, the walk's result does not
  // depend on the snapshot order: it is the map below, built from the old
  // record label by label. Outside that condition the walk is order
  // dependent (see RenameSwapLosesValue).
  // ---------------------------------------------------------------------

  /** The label an entry ends up under. */
  function Target(k: string, cs: ChangeSet): string {
    if k in cs.labelsToUpdate then cs.labelsToUpdate[k] else k
  }

  /** The value an entry ends up with, `None` if it is deleted. The
      option-field test is made against the label after renaming. */
  function Outcome(k: string, v: Value, cs: ChangeSet): Option<Value> {
    if Target(k, cs) in cs.optionFields then RewriteValue(v, cs) else Some(v)
  }

  /** The entry survives the migration. */
  predicate Survives(m: map<string, Value>, k: string, cs: ChangeSet)
    requires k in m
  {
    k !in cs.fieldsToDelete && Outcome(k, m[k], cs).Some?
  }

  /** Renames neither land on a label the record holds nor merge two of
      its labels. */
  predicate Clean(m: map<string, Value>, cs: ChangeSet) {
    && (forall k | k in m && k !in cs.fieldsToDelete && k in cs.labelsToUpdate ::
          cs.labelsToUpdate[k] !in m)
    && (forall k1, k2 | k1 in m && k2 in m && k1 != k2 && k1 !in cs.fieldsToDelete
          && k2 !in cs.fieldsToDelete && k1 in cs.labelsToUpdate && k2 in cs.labelsToUpdate ::
          cs.labelsToUpdate[k1] != cs.labelsToUpdate[k2])
  }

  /** Under Clean, different surviving labels land on different labels. */
  lemma TargetInjective(m: map<string, Value>, cs: ChangeSet, k1: string, k2: string)
    requires Clean(m, cs)
    requires k1 in m && k2 in m && k1 !in cs.fieldsToDelete && k2 !in cs.fieldsToDelete
    requires Target(k1, cs) == Target(k2, cs)
    ensures k1 == k2
  {
  }

  /** The migrated entries of the labels in `done`. */
  function MigratedPart(m: map<string, Value>, done: set<string>, cs: ChangeSet): map<string, Value>
    requires Clean(m, cs)
  {
    map k | k in m && k in done && Survives(m, k, cs) :: Target(k, cs) := Outcome(k, m[k], cs).value
  }

  /** The record as a map after the migration, by the reference. */
  function IntendedView(m: map<string, Value>, cs: ChangeSet): map<string, Value>
    requires Clean(m, cs)
  {
    MigratedPart(m, m.Keys, cs)
  }

  /** The labels of `m` still to be walked. */
  function Pending(m: map<string, Value>, todo: set<string>): map<string, Value> {
    map k | k in m && k in todo :: m[k]
  }

  /** A map with the entry under `t` set to an outcome, or removed. */
  function Settle(m: map<string, Value>, t: string, o: Option<Value>): map<string, Value> {
    match o
    case None => m - {t}
    case Some(w) => m[t := w]
  }

  /** The option stage on a state that holds the label. */
  lemma RewriteOptionsView(r: Record, t: string, k: string, cs: ChangeSet)
    requires t in View(r) && t == Target(k, cs)
    ensures RewriteOptions(r, t, cs).Some?
    ensures View(RewriteOptions(r, t, cs).value) == Settle(View(r), t, Outcome(k, View(r)[t], cs))
  {
  }

  /** A step on a renamed label: pop it, store its value under the target
      (overwriting whatever was there), then the option stage there. */
  lemma StepRenamed(r: Record, k: string, cs: ChangeSet)
    requires k in View(r) && k !in cs.fieldsToDelete && k in cs.labelsToUpdate
    ensures Step(r, k, cs).Some?
    ensures View(Step(r, k, cs).value) == Settle(View(r) - {k}, Target(k, cs), Outcome(k, View(r)[k], cs))
  {
    var v := View(r)[k];
    var t := cs.labelsToUpdate[k];
    var r1 := Put(Delete(r, k), t, v);
    assert Step(r, k, cs) == RewriteOptions(r1, t, cs);
    var rest := View(r) - {k};
    assert View(r1) == rest[t := v];
    RewriteOptionsView(r1, t, k, cs);
    SettleOverwrite(rest, t, v, Outcome(k, v, cs));
  }

  /** Settling a label just stored is settling it directly: the stored
      value, and whatever it overwrote, is gone either way. */
  lemma SettleOverwrite(m: map<string, Value>, t: string, v: Value, o: Option<Value>)
    ensures Settle(m[t := v], t, o) == Settle(m, t, o)
  {
    if o.None? {
      assert m[t := v] - {t} == m - {t};
    }
  }

  /** A step on a label that is neither deleted nor renamed: the option
      stage in place. */
  lemma StepInPlace(r: Record, k: string, cs: ChangeSet)
    requires k in View(r) && k !in cs.fieldsToDelete && k !in cs.labelsToUpdate
    ensures Step(r, k, cs).Some?
    ensures View(Step(r, k, cs).value) == Settle(View(r) - {k}, Target(k, cs), Outcome(k, View(r)[k], cs))
  {
    assert Step(r, k, cs) == RewriteOptions(r, k, cs);
    RewriteOptionsView(r, k, k, cs);
    SettleRemoved(View(r), k, Outcome(k, View(r)[k], cs));
  }

  /** Settling a label does not depend on its old entry. */
  lemma SettleRemoved(m: map<string, Value>, t: string, o: Option<Value>)
    ensures Settle(m - {t}, t, o) == Settle(m, t, o)
  {
    if o.Some? {
      assert (m - {t})[t := o.value] == m[t := o.value];
    } else {
      assert m - {t} - {t} == m - {t};
    }
  }

  /** One step of the walk, on a state that holds `k`: `k` goes, and its
      outcome (if any) appears under its target, replacing any entry
      already there. */
  lemma StepView(r: Record, k: string, cs: ChangeSet)
    requires k in View(r)
    ensures Step(r, k, cs).Some?
    ensures k in cs.fieldsToDelete ==> View(Step(r, k, cs).value) == View(r) - {k}
    ensures k !in cs.fieldsToDelete ==>
      View(Step(r, k, cs).value) == Settle(View(r) - {k}, Target(k, cs), Outcome(k, View(r)[k], cs))
  {
    if k !in cs.fieldsToDelete {
      if k in cs.labelsToUpdate {
        StepRenamed(r, k, cs);
      } else {
        StepInPlace(r, k, cs);
      }
    }
  }

  /** Nothing migrated so far sits on the target of a label not yet walked. */
  lemma TargetFree(m: map<string, Value>, done: set<string>, k: string, cs: ChangeSet)
    requires Clean(m, cs)
    requires k in m && k !in done && k !in cs.fieldsToDelete
    ensures Target(k, cs) !in MigratedPart(m, done, cs)
  {
    if Target(k, cs) in MigratedPart(m, done, cs) {
      var j :| j in m && j in done && Survives(m, j, cs) && Target(j, cs) == Target(k, cs);
      TargetInjective(m, cs, j, k);
    }
  }

  /** Nothing migrated so far sits on a label not yet walked. */
  lemma PendingFree(m: map<string, Value>, done: set<string>, k: string, cs: ChangeSet)
    requires Clean(m, cs)
    requires k in m && k !in done
    ensures k !in MigratedPart(m, done, cs)
  {
  }

  /** The state of the walk before `k` is taken. */
  predicate Before(
    r: Record, k: string, m: map<string, Value>, todo: set<string>, done: set<string>, cs: ChangeSet)
  {
    && Clean(m, cs)
    && k in m && k !in todo && k !in done
    && (forall x | x in todo :: x in m && x !in done)
    && View(r) == Pending(m, todo + {k}) + MigratedPart(m, done, cs)
  }

  /** Taking `k` leaves the untouched part without it. */
  lemma BeforeStep(
    r: Record, k: string, m: map<string, Value>, todo: set<string>, done: set<string>, cs: ChangeSet)
    requires Before(r, k, m, todo, done, cs)
    ensures k in View(r) && View(r)[k] == m[k]
    ensures View(r) - {k} == Pending(m, todo) + MigratedPart(m, done, cs)
    ensures k !in cs.fieldsToDelete ==>
      Target(k, cs) !in Pending(m, todo) && Target(k, cs) !in MigratedPart(m, done, cs)
    ensures k !in cs.fieldsToDelete && k in cs.labelsToUpdate ==> cs.labelsToUpdate[k] !in View(r)
  {
    PendingFree(m, done, k, cs);
    assert Pending(m, todo + {k}) - {k} == Pending(m, todo);
    if k !in cs.fieldsToDelete {
      TargetFree(m, done, k, cs);
    }
  }

  /** One step of the walk moves `k` from the pending part to the
      migrated part. */
  lemma StepMovesLabel(
    r: Record, k: string, m: map<string, Value>, todo: set<string>, done: set<string>, cs: ChangeSet)
    requires Before(r, k, m, todo, done, cs)
    ensures Step(r, k, cs).Some?
    ensures View(Step(r, k, cs).value) == Pending(m, todo) + MigratedPart(m, done + {k}, cs)
  {
    BeforeStep(r, k, m, todo, done, cs);
    StepView(r, k, cs);
    if k in cs.fieldsToDelete {
      StepDeleted(m, done, k, cs);
    } else if Survives(m, k, cs) {
      StepSurvived(m, done, k, cs);
      UpdateRight(Pending(m, todo), MigratedPart(m, done, cs), Target(k, cs), Outcome(k, m[k], cs).value);
    } else {
      StepDropped(m, done, k, cs);
      RemoveAbsent(Pending(m, todo), MigratedPart(m, done, cs), Target(k, cs));
    }
  }

  lemma StepDeleted(m: map<string, Value>, done: set<string>, k: string, cs: ChangeSet)
    requires Clean(m, cs) && k in m && k in cs.fieldsToDelete
    ensures MigratedPart(m, done + {k}, cs) == MigratedPart(m, done, cs)
  {
  }

  lemma StepDropped(m: map<string, Value>, done: set<string>, k: string, cs: ChangeSet)
    requires Clean(m, cs) && k in m && !Survives(m, k, cs)
    ensures MigratedPart(m, done + {k}, cs) == MigratedPart(m, done, cs)
  {
  }

  lemma StepSurvived(m: map<string, Value>, done: set<string>, k: string, cs: ChangeSet)
    requires Clean(m, cs) && k in m && Survives(m, k, cs)
    ensures MigratedPart(m, done + {k}, cs)
      == MigratedPart(m, done, cs)[Target(k, cs) := Outcome(k, m[k], cs).value]
  {
    var t := Target(k, cs);
    var w := Outcome(k, m[k], cs).value;
    var part' := MigratedPart(m, done + {k}, cs);
    var part := MigratedPart(m, done, cs);
    forall x | x in part' && x != t
      ensures x in part && part'[x] == part[x]
    {
      var j :| j in m && j in done + {k} && Survives(m, j, cs) && Target(j, cs) == x;
      assert j in done;
    }
    assert forall x | x in part :: x in part';
  }

  /** Storing into the migrated part of a disjoint union. */
  lemma UpdateRight(a: map<string, Value>, b: map<string, Value>, t: string, w: Value)
    requires t !in a
    ensures (a + b)[t := w] == a + b[t := w]
  {
  }

  /** Removing a label absent from both parts changes nothing. */
  lemma RemoveAbsent(a: map<string, Value>, b: map<string, Value>, t: string)
    requires t !in a && t !in b
    ensures (a + b) - {t} == a + b
  {
  }

  /** The labels of a duplicate-free sequence are its head and, apart
      from it, the labels of its tail. */
  lemma SplitHead(ks: seq<string>)
    requires ks != []
    requires forall i, j | 0 <= i < j < |ks| :: ks[i] != ks[j]
    ensures (set x | x in ks) == (set x | x in ks[1..]) + {ks[0]}
    ensures ks[0] !in (set x | x in ks[1..])
    ensures forall i, j | 0 <= i < j < |ks[1..]| :: ks[1..][i] != ks[1..][j]
  {
    assert ks == [ks[0]] + ks[1..];
    assert forall i | 0 <= i < |ks[1..]| :: ks[1..][i] == ks[i + 1] && ks[1..][i] != ks[0];
  }

  /** With every label walked, the migrated part is the reference. */
  lemma WalkDone(m: map<string, Value>, done: set<string>, cs: ChangeSet)
    requires Clean(m, cs)
    requires forall k | k in m :: k in done
    ensures Pending(m, {}) + MigratedPart(m, done, cs) == IntendedView(m, cs)
  {
    assert Pending(m, {}) == map[];
  }

  /** The walk over the remaining labels, from a state holding the
      untouched rest of the record and the migrated entries of the labels
      already walked, ends in the reference. */
  lemma {:induction false} WalkReachesReference(
    r: Record, ks: seq<string>, m: map<string, Value>, done: set<string>, cs: ChangeSet)
    requires Clean(m, cs)
    requires forall i, j | 0 <= i < j < |ks| :: ks[i] != ks[j]
    requires forall k | k in ks :: k in m && k !in done
    requires forall k | k in m :: k in done || k in ks
    requires View(r) == Pending(m, set k | k in ks) + MigratedPart(m, done, cs)
    ensures Walk(r, ks, cs).Some?
    ensures View(Walk(r, ks, cs).value) == IntendedView(m, cs)
    decreases |ks|
  {
    if ks == [] {
      WalkDone(m, done, cs);
    } else {
      var k := ks[0];
      var rest := ks[1..];
      var todo := set x | x in rest;
      SplitHead(ks);
      assert Before(r, k, m, todo, done, cs);
      StepMovesLabel(r, k, m, todo, done, cs);
      WalkReachesReference(Step(r, k, cs).value, rest, m, done + {k}, cs);
    }
  }

  /** Under Clean, the migration of a record succeeds and yields the
      reference: the walk's order does not matter. */
  lemma MigrateRecordMatchesReference(r: Record, cs: ChangeSet)
    requires Clean(View(r), cs)
    ensures MigrateRecord(r, cs).Some?
    ensures View(MigrateRecord(r, cs).value) == IntendedView(View(r), cs)
  {
    var m := View(r);
    var ks := Snapshot(r);
    WalkStart(r);
    MigratedNone(m, cs);
    assert m == Pending(m, set k | k in ks) + MigratedPart(m, {}, cs);
    WalkReachesReference(r, ks, m, {}, cs);
  }

  /** The walk starts with every label of the record pending. */
  lemma WalkStart(r: Record)
    ensures forall i, j | 0 <= i < j < |Snapshot(r)| :: Snapshot(r)[i] != Snapshot(r)[j]
    ensures forall k | k in Snapshot(r) :: k in View(r)
    ensures forall k | k in View(r) :: k in Snapshot(r)
    ensures View(r) == Pending(View(r), set k | k in Snapshot(r))
  {
    SnapshotLabels(r);
    PendingAll(View(r), set k | k in Snapshot(r));
  }

  /** With every label pending, the pending part is the whole map. */
  lemma PendingAll(m: map<string, Value>, todo: set<string>)
    requires forall k | k in m :: k in todo
    ensures Pending(m, todo) == m
  {
  }

  /** Before any label is walked, nothing is migrated. */
  lemma MigratedNone(m: map<string, Value>, cs: ChangeSet)
    requires Clean(m, cs)
    ensures MigratedPart(m, {}, cs) == map[]
  {
  }

  /** The reference holds a label iff some surviving old label lands on it. */
  lemma ReferenceLabels(m: map<string, Value>, cs: ChangeSet, t: string)
    requires Clean(m, cs)
    ensures t in IntendedView(m, cs) <==> exists k | k in m :: Survives(m, k, cs) && Target(k, cs) == t
  {
  }

  /** The reference's entry for one old label. */
  lemma ReferenceEntry(m: map<string, Value>, cs: ChangeSet, k: string)
    requires Clean(m, cs) && k in m && k !in cs.fieldsToDelete
    ensures Survives(m, k, cs) ==>
      Target(k, cs) in IntendedView(m, cs) && IntendedView(m, cs)[Target(k, cs)] == Outcome(k, m[k], cs).value
    ensures !Survives(m, k, cs) ==> Target(k, cs) !in IntendedView(m, cs)
  {
    if !Survives(m, k, cs) && Target(k, cs) in IntendedView(m, cs) {
      var j :| j in m && Survives(m, j, cs) && Target(j, cs) == Target(k, cs);
      TargetInjective(m, cs, j, k);
    }
  }

  /** The entry of `k` after the migration, under Clean. */
  function MigratedView(r: Record, cs: ChangeSet): map<string, Value>
    requires Clean(View(r), cs)
  {
    MigrateRecordMatchesReference(r, cs);
    View(MigrateRecord(r, cs).value)
  }

  /** A renamed label's entry moves to the new label with its value intact,
      and the old label is gone (lines 337-339), provided the new label is
      not an option field of its own. */
  lemma MigrationMovesRenamedEntry(r: Record, cs: ChangeSet, k: string)
    requires Clean(View(r), cs)
    requires k in View(r) && k !in cs.fieldsToDelete && k in cs.labelsToUpdate
    requires cs.labelsToUpdate[k] !in cs.optionFields
    ensures MigrateRecord(r, cs).Some?
    ensures cs.labelsToUpdate[k] in MigratedView(r, cs)
    ensures MigratedView(r, cs)[cs.labelsToUpdate[k]] == View(r)[k]
    ensures k !in MigratedView(r, cs)
  {
    MigrateRecordMatchesReference(r, cs);
    ReferenceEntry(View(r), cs, k);
    ReferenceLabels(View(r), cs, k);
  }

  /** An entry of a field that is neither deleted, renamed nor
      option-bearing keeps its label and value. */
  lemma MigrationKeepsUntouchedEntry(r: Record, cs: ChangeSet, k: string)
    requires Clean(View(r), cs)
    requires k in View(r) && k !in cs.fieldsToDelete && k !in cs.labelsToUpdate && k !in cs.optionFields
    ensures MigrateRecord(r, cs).Some?
    ensures k in MigratedView(r, cs) && MigratedView(r, cs)[k] == View(r)[k]
  {
    MigrateRecordMatchesReference(r, cs);
    ReferenceEntry(View(r), cs, k);
  }

  /** A single-string value of an option field (looked up under its label
      after renaming) is deleted if it names a deleted option, else
      relabelled if its option was relabelled, else kept (lines 346-354). */
  lemma MigrationRewritesSingleOption(r: Record, cs: ChangeSet, k: string, s: string)
    requires Clean(View(r), cs)
    requires k in View(r) && k !in cs.fieldsToDelete && Target(k, cs) in cs.optionFields
    requires View(r)[k] == Single(s)
    ensures MigrateRecord(r, cs).Some?
    ensures s in cs.optionsToDelete ==> Target(k, cs) !in MigratedView(r, cs)
    ensures s !in cs.optionsToDelete && s in cs.optionsToUpdate ==>
      Target(k, cs) in MigratedView(r, cs) && MigratedView(r, cs)[Target(k, cs)] == Single(cs.optionsToUpdate[s])
    ensures s !in cs.optionsToDelete && s !in cs.optionsToUpdate ==>
      Target(k, cs) in MigratedView(r, cs) && MigratedView(r, cs)[Target(k, cs)] == Single(s)
  {
    MigrateRecordMatchesReference(r, cs);
    ReferenceEntry(View(r), cs, k);
  }

  /** A list value of an option field keeps its surviving options, renamed,
      in order (the intent of lines 356-367). */
  lemma MigrationRewritesOptionList(r: Record, cs: ChangeSet, k: string, xs: seq<string>)
    requires Clean(View(r), cs)
    requires k in View(r) && k !in cs.fieldsToDelete && Target(k, cs) in cs.optionFields
    requires View(r)[k] == Multi(xs)
    ensures MigrateRecord(r, cs).Some?
    ensures Target(k, cs) in MigratedView(r, cs)
    ensures MigratedView(r, cs)[Target(k, cs)]
      == Multi(RewriteList(xs, cs.optionsToDelete, cs.optionsToUpdate))
  {
    MigrateRecordMatchesReference(r, cs);
    ReferenceEntry(View(r), cs, k);
  }

  /** Two fields swapping labels: the walk moves A's value onto B, then
      moves it back onto A, so B's own value is lost and A keeps its old
      value. The snapshot order decides the outcome. */
  lemma RenameSwapLosesValue()
    ensures
      var r: Record := [Entry("A", Single("1")), Entry("B", Single("2"))];
      var cs := NoChanges.(labelsToUpdate := map["A" := "B", "B" := "A"]);
      !Clean(View(r), cs) && MigrateRecord(r, cs) == Some([Entry("A", Single("1"))])
  {
    var r: Record := [Entry("A", Single("1")), Entry("B", Single("2"))];
    var cs := NoChanges.(labelsToUpdate := map["A" := "B", "B" := "A"]);
    assert Snapshot(r) == ["A", "B"];
    var r1: Record := [Entry("B", Single("2"))];
    assert Delete(r, "A") == r1;
    var r2: Record := [Entry("B", Single("1"))];
    assert Put(r1, "B", Single("1")) == r2;
    assert Step(r, "A", cs) == Some(r2);
    assert Delete(r2, "B") == [];
    assert Put([], "A", Single("1")) == [Entry("A", Single("1"))];
    assert Step(r2, "B", cs) == Some([Entry("A", Single("1"))]);
  }

  /** A rename chain A -> B -> C where B is an option field whose moved
      value names a deleted option: the entry moved onto B is deleted, and
      the walk then pops the vanished B (a `KeyError`). */
  /** Deleting "A" and renaming "B" to "A" in one save: with "A" first in
      the record, the deletion comes first and "B"'s value lands on "A". */
  lemma DeleteThenRenameOntoKeepsValue()
    ensures
      var r: Record := [Entry("A", Single("1")), Entry("B", Single("2"))];
      var cs := NoChanges.(fieldsToDelete := {"A"}, labelsToUpdate := map["B" := "A"]);
      !Clean(View(r), cs) && MigrateRecord(r, cs) == Some([Entry("A", Single("2"))])
  {
    var r: Record := [Entry("A", Single("1")), Entry("B", Single("2"))];
    var cs := NoChanges.(fieldsToDelete := {"A"}, labelsToUpdate := map["B" := "A"]);
    assert Snapshot(r) == ["A", "B"];
    var r1: Record := [Entry("B", Single("2"))];
    assert Delete(r, "A") == r1;
    assert Step(r, "A", cs) == Some(r1);
    assert Delete(r1, "B") == [];
    assert Put([], "A", Single("2")) == [Entry("A", Single("2"))];
    assert Step(r1, "B", cs) == Some([Entry("A", Single("2"))]);
  }

  /** The same save with "B" first in the record: "B"'s value overwrites
      "A", and the deletion of "A" then removes it, emptying the record. */
  lemma RenameOntoThenDeleteLosesValue()
    ensures
      var r: Record := [Entry("B", Single("2")), Entry("A", Single("1"))];
      var cs := NoChanges.(fieldsToDelete := {"A"}, labelsToUpdate := map["B" := "A"]);
      !Clean(View(r), cs) && MigrateRecord(r, cs) == Some([])
  {
    var r: Record := [Entry("B", Single("2")), Entry("A", Single("1"))];
    var cs := NoChanges.(fieldsToDelete := {"A"}, labelsToUpdate := map["B" := "A"]);
    assert Snapshot(r) == ["B", "A"];
    var r1: Record := [Entry("A", Single("1"))];
    assert Delete(r, "B") == r1;
    var r2: Record := [Entry("A", Single("2"))];
    assert Put(r1, "A", Single("2")) == r2;
    assert Step(r, "B", cs) == Some(r2);
    assert Delete(r2, "A") == [];
    assert Step(r2, "A", cs) == Some([]);
  }

  lemma RenameChainRaises()
    ensures
      var r: Record := [Entry("A", Single("x")), Entry("B", Single("y"))];
      var cs := ChangeSet({}, map["A" := "B", "B" := "C"], {"x"}, map[], {"B"});
      MigrateRecord(r, cs) == None
  {
    var r: Record := [Entry("A", Single("x")), Entry("B", Single("y"))];
    var cs := ChangeSet({}, map["A" := "B", "B" := "C"], {"x"}, map[], {"B"});
    assert Snapshot(r) == ["A", "B"];
    var r1: Record := [Entry("B", Single("y"))];
    assert Delete(r, "A") == r1;
    var r2: Record := [Entry("B", Single("x"))];
    assert Put(r1, "B", Single("x")) == r2;
    assert Delete(r2, "B") == [];
    assert Step(r, "A", cs) == Some([]);
    assert Step([], "B", cs) == None;
  }

  // ---------------------------------------------------------------------
  // Facts that hold on every walk that succeeds, Clean or not.
  // ---------------------------------------------------------------------

  /** The option stage touches no label but its own. */
  lemma RewriteOptionsFrame(r: Record, t: string, cs: ChangeSet)
    requires RewriteOptions(r, t, cs).Some?
    ensures forall x | x != t :: x in View(RewriteOptions(r, t, cs).value) <==> x in View(r)
  {
  }

  /** One step removes its label (a deleted one for good) and adds at
      most the label it lands on; every other label stays or stays away. */
  lemma StepFrame(r: Record, k: string, cs: ChangeSet)
    requires Step(r, k, cs).Some?
    ensures k in cs.fieldsToDelete ==> View(Step(r, k, cs).value) == View(r) - {k}
    ensures k !in cs.fieldsToDelete ==>
      forall x | x != k && x != Target(k, cs) :: x in View(Step(r, k, cs).value) <==> x in View(r)
    ensures k !in cs.fieldsToDelete ==>
      forall x | x in View(Step(r, k, cs).value) :: (x in View(r) && x != k) || x == Target(k, cs)
  {
    if k !in cs.fieldsToDelete {
      if k in cs.labelsToUpdate {
        var t := cs.labelsToUpdate[k];
        var r1 := Put(Delete(r, k), t, View(r)[k]);
        RewriteOptionsFrame(r1, t, cs);
      } else {
        RewriteOptionsFrame(r, k, cs);
      }
    }
  }

  /** A deleted label, onto which no remaining snapshot label is renamed,
      is gone once the walk has passed it. */
  lemma {:induction false} WalkDropsLabel(r: Record, ks: seq<string>, cs: ChangeSet, l: string)
    requires l in cs.fieldsToDelete
    requires forall k | k in ks && k !in cs.fieldsToDelete && k in cs.labelsToUpdate :: cs.labelsToUpdate[k] != l
    requires l in View(r) ==> l in ks
    ensures Walk(r, ks, cs).Some? ==> l !in View(Walk(r, ks, cs).value)
    decreases |ks|
  {
    if ks != [] && Step(r, ks[0], cs).Some? {
      var k := ks[0];
      var r' := Step(r, k, cs).value;
      StepFrame(r, k, cs);
      assert ks == [k] + ks[1..];
      WalkDropsLabel(r', ks[1..], cs, l);
    }
  }

  /** Some old label that is not deleted lands on `t`. */
  predicate Landed(m: map<string, Value>, t: string, cs: ChangeSet) {
    exists k | k in m && k !in cs.fieldsToDelete :: Target(k, cs) == t
  }

  /** Every label of the walk's result is still pending at the start or
      is where some old label that is not deleted lands. */
  lemma {:induction false} WalkInventsNoLabels(r: Record, ks: seq<string>, m: map<string, Value>, cs: ChangeSet)
    requires forall k | k in ks :: k in m
    requires forall t | t in View(r) :: t in ks || Landed(m, t, cs)
    ensures Walk(r, ks, cs).Some? ==> forall t | t in View(Walk(r, ks, cs).value) :: Landed(m, t, cs)
    decreases |ks|
  {
    if ks != [] && Step(r, ks[0], cs).Some? {
      var k := ks[0];
      var r' := Step(r, k, cs).value;
      StepFrame(r, k, cs);
      assert ks == [k] + ks[1..];
      forall t | t in View(r')
        ensures t in ks[1..] || Landed(m, t, cs)
      {
        if k !in cs.fieldsToDelete && t == Target(k, cs) {
          assert k in m;
        }
      }
      WalkInventsNoLabels(r', ks[1..], m, cs);
    }
  }

  /** Every label of a migrated record is where some old label that is
      not deleted lands: the migration invents no labels. */
  lemma MigrationInventsNoLabels(r: Record, cs: ChangeSet)
    ensures MigrateRecord(r, cs).Some? ==>
      forall t | t in View(MigrateRecord(r, cs).value) ::
        exists k | k in View(r) && k !in cs.fieldsToDelete :: Target(k, cs) == t
  {
    SnapshotLabels(r);
    WalkInventsNoLabels(r, Snapshot(r), View(r), cs);
  }

  /** A deleted field's label is gone from every migrated record, unless
      another label of the record is renamed onto it (lines 332-334). A
      Clean record always migrates. */
  lemma MigrationDropsDeletedFields(r: Record, cs: ChangeSet, l: string)
    requires l in cs.fieldsToDelete
    requires forall k | k in View(r) && k !in cs.fieldsToDelete && k in cs.labelsToUpdate :: cs.labelsToUpdate[k] != l
    ensures Clean(View(r), cs) ==> MigrateRecord(r, cs).Some?
    ensures MigrateRecord(r, cs).Some? ==> l !in View(MigrateRecord(r, cs).value)
  {
    SnapshotLabels(r);
    WalkDropsLabel(r, Snapshot(r), cs, l);
    if Clean(View(r), cs) {
      MigrateRecordMatchesReference(r, cs);
    }
  }

  // ---------------------------------------------------------------------
  // The whole store (lines 327-371).
  // ---------------------------------------------------------------------

  /** The store after the migration: every post's record migrated, posts
      left without entries removed; `None` if any post's walk raises. */
  function MigrateStore(s: Store, cs: ChangeSet): (r: Option<Store>)
    ensures r.Some? <==> forall p | p in s :: MigrateRecord(s[p], cs).Some?
    ensures r.Some? ==> NoEmptyRecords(r.value)
    ensures r.Some? ==> r.value.Keys <= s.Keys
    // a post is kept, with its migrated record, iff its walk leaves entries
    ensures r.Some? ==> forall p | p in s ::
      && (p in r.value <==> |MigrateRecord(s[p], cs).value| > 0)
      && (p in r.value ==> r.value[p] == MigrateRecord(s[p], cs).value)
  {
    if forall p | p in s :: MigrateRecord(s[p], cs).Some? then
      Some(map p | p in s && |MigrateRecord(s[p], cs).value| > 0 :: MigrateRecord(s[p], cs).value)
    else None
  }

  /** Every record of the store is Clean for the change set. */
  predicate StoreClean(s: Store, cs: ChangeSet) {
    forall p | p in s :: Clean(View(s[p]), cs)
  }

  /** Under Clean records the store migration succeeds; a post stays iff
      its reference record is non-empty, and then holds the reference. */
  lemma StoreMigrationMatchesReference(s: Store, cs: ChangeSet)
    requires StoreClean(s, cs)
    ensures MigrateStore(s, cs).Some?
    ensures forall p | p in s :: (p in MigrateStore(s, cs).value <==> IntendedView(View(s[p]), cs) != map[])
    ensures forall p | p in MigrateStore(s, cs).value ::
      View(MigrateStore(s, cs).value[p]) == IntendedView(View(s[p]), cs)
  {
    forall p | p in s
      ensures MigrateRecord(s[p], cs).Some?
      ensures View(MigrateRecord(s[p], cs).value) == IntendedView(View(s[p]), cs)
    {
      MigrateRecordMatchesReference(s[p], cs);
    }
    forall p | p in s
      ensures |MigrateRecord(s[p], cs).value| > 0 <==> IntendedView(View(s[p]), cs) != map[]
    {
      EmptyRecord(MigrateRecord(s[p], cs).value);
    }
  }

  /** A deleted field's label is gone from every post of a migrated
      store, unless some post holds a label renamed onto it. */
  lemma StoreDropsDeletedFields(s: Store, cs: ChangeSet, l: string)
    requires l in cs.fieldsToDelete
    ensures MigrateStore(s, cs).Some? ==>
      forall p | p in MigrateStore(s, cs).value
        && (forall k | k in View(s[p]) && k !in cs.fieldsToDelete && k in cs.labelsToUpdate ::
              cs.labelsToUpdate[k] != l) ::
        l !in View(MigrateStore(s, cs).value[p])
  {
    if MigrateStore(s, cs).Some? {
      forall p | p in MigrateStore(s, cs).value
        && (forall k | k in View(s[p]) && k !in cs.fieldsToDelete && k in cs.labelsToUpdate ::
              cs.labelsToUpdate[k] != l)
        ensures l !in View(MigrateStore(s, cs).value[p])
      {
        MigrationDropsDeletedFields(s[p], cs, l);
      }
    }
  }
}

=== FILE: reconcile.dfy ===
/** The schema save of `save_annotation_fields` (lines 252-377), with the
    database reads and writes replaced by values: the stored schema and
    the stored `annotations` column come in, and what is written to that
    column (if anything) comes out. The new schema itself is written
    unconditionally before any of this (line 246). */
module Reconcile {
  import opened Common
  import opened Schema
  import opened Annotations
  import opened Delta
  import opened Migration

  /** `Success(None)`: the annotations are not rewritten. `Success(Some(b))`:
      `b` is written to the column. `Failure`: the request raised after the
      new schema was written, and the annotations were left as they were. */
  function SaveAnnotationFields(prior: OldSchema, nf: NewSchema, stored: Blob)
    : (r: Result<Option<Blob>, Fault>)
    // nothing to reconcile without both a stored schema and stored annotations (line 266)
    ensures |prior| == 0 || |Decode(stored)| == 0 ==> r == Success(None)
    // an edit that changes none of the four collections rewrites nothing (line 325)
    ensures ComputeChangeSet(prior, nf).Success? && !HasChanges(ComputeChangeSet(prior, nf).value) ==>
      r == Success(None)
    // the diff's failure is the request's failure
    ensures |prior| > 0 && |Decode(stored)| > 0 && ComputeChangeSet(prior, nf).Failure? ==>
      r == Failure(ComputeChangeSet(prior, nf).error)
    // a rewritten store holds no empty record, adds no post, and is blank iff it has no posts
    ensures r.Success? && r.value.Some? ==>
      && NoEmptyRecords(Decode(r.value.value))
      && Decode(r.value.value).Keys <= Decode(stored).Keys
      && (r.value.value.Blank? <==> |Decode(r.value.value)| == 0)
    // past both guards, the save fails on a vanished label iff some walk raises,
    // and otherwise writes the migrated store
    ensures
      (&& |prior| > 0 && |Decode(stored)| > 0 && ComputeChangeSet(prior, nf).Success?
       && HasChanges(ComputeChangeSet(prior, nf).value)) ==>
      && (r == Failure(VanishedLabel) <==> MigrateStore(Decode(stored), ComputeChangeSet(prior, nf).value).None?)
      && (MigrateStore(Decode(stored), ComputeChangeSet(prior, nf).value).Some? ==>
            r == Success(Some(Encode(MigrateStore(Decode(stored), ComputeChangeSet(prior, nf).value).value))))
      && (r.Success? ==>
            r == Success(Some(Encode(MigrateStore(Decode(stored), ComputeChangeSet(prior, nf).value).value))))
  {
    var s := Decode(stored);
    if |prior| == 0 || |s| == 0 then Success(None)
    else
      match ComputeChangeSet(prior, nf)
      case Failure(err) => Failure(err)
      case Success(cs) =>
        if !HasChanges(cs) then Success(None)
        else
          match MigrateStore(s, cs)
          case None => Failure(VanishedLabel)
          case Some(migrated) => Success(Some(Encode(migrated)))
  }

  /** Re-submitting the stored schema (fields may be added) leaves the
      annotations alone. */
  lemma UnchangedSchemaKeepsAnnotations(prior: OldSchema, nf: NewSchema, stored: Blob)
    requires forall i | 0 <= i < |prior| :: prior[i].id in nf && nf[prior[i].id] == prior[i].field
    requires forall i | 0 <= i < |prior| && prior[i].field.options.Some? ::
      DistinctChoiceIds(prior[i].field.options.value)
    ensures SaveAnnotationFields(prior, nf, stored) == Success(None)
  {
    UnchangedFieldsHaveNoChanges(prior, nf);
  }

  /** When every stored record is Clean for the edit, the save succeeds and
      writes, post by post, the order-free reference of the migration. */
  lemma SaveMatchesReference(prior: OldSchema, nf: NewSchema, stored: Blob)
    requires |prior| > 0 && |Decode(stored)| > 0
    requires ComputeChangeSet(prior, nf).Success?
    requires HasChanges(ComputeChangeSet(prior, nf).value)
    requires StoreClean(Decode(stored), ComputeChangeSet(prior, nf).value)
    ensures SaveAnnotationFields(prior, nf, stored).Success?
    ensures SaveAnnotationFields(prior, nf, stored).value.Some?
    ensures
      var cs := ComputeChangeSet(prior, nf).value;
      var written := Decode(SaveAnnotationFields(prior, nf, stored).value.value);
      && (forall p | p in Decode(stored) :: (p in written <==> IntendedView(View(Decode(stored)[p]), cs) != map[]))
      && (forall p | p in written :: View(written[p]) == IntendedView(View(Decode(stored)[p]), cs))
  {
    var cs := ComputeChangeSet(prior, nf).value;
    var s := Decode(stored);
    StoreMigrationMatchesReference(s, cs);
    assert SaveAnnotationFields(prior, nf, stored) == Success(Some(Encode(MigrateStore(s, cs).value)));
  }

  /** Retyping a text field to a dropdown under the same label keeps its
      annotations: neither the data nor the options are touched. */
  lemma TextToDropdownKeepsAnnotations(stored: Blob)
    ensures SaveAnnotationFields(
      [FieldEntry("f1", Field("Notes", "text", None))],
      map["f1" := Field("Notes", "dropdown", Some([Choice("o1", "Yes")]))],
      stored) == Success(None)
  {
  }

  // A dropdown "Topic" retyped to a checkbox.
  const TopicDropdown := [FieldEntry("f1", Field("Topic", "dropdown", Some([Choice("o1", "Politics")])))]
  const TopicCheckbox := map["f1" := Field("Topic", "checkbox", Some([Choice("o1", "Politics")]))]
  const TopicPolitics: Record := [Entry("Topic", Single("Politics"))]

  lemma RetypeChangeSet()
    ensures ComputeChangeSet(TopicDropdown, TopicCheckbox) == Success(NoChanges.(fieldsToDelete := {"Topic"}))
  {
    var cs := NoChanges.(fieldsToDelete := {"Topic"});
    assert TopicDropdown[..0] == [];
    assert FieldDelta(TopicDropdown[0], TopicCheckbox) == Success(cs);
    assert Combine(NoChanges, cs) == cs;
  }

  lemma RetypeMigration()
    ensures MigrateStore(map["p1" := TopicPolitics], NoChanges.(fieldsToDelete := {"Topic"})) == Some(map[])
  {
    var cs := NoChanges.(fieldsToDelete := {"Topic"});
    assert Snapshot(TopicPolitics) == ["Topic"];
    assert Step(TopicPolitics, "Topic", cs) == Some([]);
    assert MigrateRecord(TopicPolitics, cs) == Some([]);
  }

  /** Retyping a dropdown to a checkbox deletes the field's annotations; a
      post left with nothing is removed, and a store left with no posts is
      written as the empty string. */
  lemma DropdownToCheckboxDeletesAnnotations()
    ensures SaveAnnotationFields(TopicDropdown, TopicCheckbox, Json(map["p1" := TopicPolitics]))
      == Success(Some(Blank))
  {
    RetypeChangeSet();
    RetypeMigration();
  }

  // A dropdown "Topic" renamed to "Subject" while option "Sports" is
  // replaced by "Culture".
  const TopicOptions := [Choice("o1", "Politics"), Choice("o2", "Sports")]
  const SubjectOptions := [Choice("o1", "Politics"), Choice("o3", "Culture")]
  const TopicField := [FieldEntry("f1", Field("Topic", "dropdown", Some(TopicOptions)))]
  const SubjectField := map["f1" := Field("Subject", "dropdown", Some(SubjectOptions))]
  const RenameEdit := ChangeSet({}, map["Topic" := "Subject"], {"Sports"}, map[], {"Topic"})
  const TopicSports: Record := [Entry("Topic", Single("Sports"))]
  const SubjectSports: Record := [Entry("Subject", Single("Sports"))]
  const SubjectPolitics: Record := [Entry("Subject", Single("Politics"))]

  lemma RenameChangeSet()
    ensures ComputeChangeSet(TopicField, SubjectField) == Success(RenameEdit)
  {
    assert FirstLabel(SubjectOptions, "o1") == "Politics";
    assert "o2" !in ChoiceIds(SubjectOptions);
    assert TopicOptions[..1] == [Choice("o1", "Politics")];
    assert DiffOptions(TopicOptions, SubjectOptions) == OptionDelta({"Sports"}, map[]);
    assert TopicField[..0] == [];
    assert FieldDelta(TopicField[0], SubjectField) == Success(RenameEdit);
    assert Combine(NoChanges, RenameEdit) == RenameEdit;
  }

  lemma RenameRecords()
    ensures MigrateRecord(TopicSports, RenameEdit) == Some(SubjectSports)
    ensures MigrateRecord(TopicPolitics, RenameEdit) == Some(SubjectPolitics)
  {
    assert Snapshot(TopicSports) == ["Topic"] && Snapshot(TopicPolitics) == ["Topic"];
    assert Step(TopicSports, "Topic", RenameEdit) == Some(SubjectSports);
    assert Step(TopicPolitics, "Topic", RenameEdit) == Some(SubjectPolitics);
  }

  lemma RenameMigration()
    ensures MigrateStore(map["p1" := TopicSports, "p2" := TopicPolitics], RenameEdit)
      == Some(map["p1" := SubjectSports, "p2" := SubjectPolitics])
  {
    var s := map["p1" := TopicSports, "p2" := TopicPolitics];
    RenameRecords();
    assert s["p1"] == TopicSports && s["p2"] == TopicPolitics;
    var after := MigrateStore(s, RenameEdit).value;
    assert after.Keys == {"p1", "p2"};
    assert after["p1"] == SubjectSports && after["p2"] == SubjectPolitics;
    assert after == map["p1" := SubjectSports, "p2" := SubjectPolitics];
  }

  /** A field renamed while one of its options is deleted: `option_fields`
      holds the old label "Topic" but is consulted with the new label
      "Subject", so the option values are not migrated and "Sports"
      survives under the new label. */
  lemma RenamedOptionFieldKeepsDeletedOption()
    ensures SaveAnnotationFields(TopicField, SubjectField, Json(map["p1" := TopicSports, "p2" := TopicPolitics]))
      == Success(Some(Json(map["p1" := SubjectSports, "p2" := SubjectPolitics])))
  {
    RenameChangeSet();
    RenameMigration();
  }
}

=== FILE: schema.dfy ===
/** Annotation-field definitions as the explorer's schema editor submits
    them: a JSON object from field id to `{label, type, options?}`, where
    `options` is a list of one-key `{optionId: optionLabel}` objects. */
module Schema {
  import opened Common

  /** One option of a dropdown or checkbox field. */
  datatype Choice = Choice(optionId: string, optionLabel: string)

  /** One field definition. `kind` is the `type` string as submitted; the
      `options` key may be absent. */
  datatype Field = Field(fieldLabel: string, kind: string, options: Option<seq<Choice>>)

  /** A field of the stored schema together with its id. */
  datatype FieldEntry = FieldEntry(id: string, field: Field)

  /** The previously stored schema in the dict's iteration order: the
      order decides which field wins when two write the same shared key. */
  type OldSchema = seq<FieldEntry>

  /** The newly submitted schema, consulted only by id. */
  type NewSchema = map<string, Field>

  /** `text_fields` (line 235): retyping between these keeps the data. */
  predicate IsTextLike(kind: string) {
    kind == "text" || kind == "textarea"
  }

  /** The field types whose options are diffed (line 298). */
  predicate BearsOptions(kind: string) {
    kind == "checkbox" || kind == "dropdown"
  }

  /** The option ids of an option list (`new_ids`, line 305). */
  function ChoiceIds(cs: seq<Choice>): (ids: set<string>)
    ensures forall i | 0 <= i < |cs| :: cs[i].optionId in ids
    ensures forall id | id in ids :: exists i | 0 <= i < |cs| :: cs[i].optionId == id
  {
    set c | c in cs :: c.optionId
  }

  /** The label of the first option carrying `id` (the `[0]` of line 319). */
  function FirstLabel(cs: seq<Choice>, id: string): (l: string)
    requires id in ChoiceIds(cs)
    ensures exists i | 0 <= i < |cs| ::
      && cs[i].optionId == id && cs[i].optionLabel == l
      && forall j | 0 <= j < i :: cs[j].optionId != id
  {
    if cs[0].optionId == id then cs[0].optionLabel
    else
      var l := FirstLabel(cs[1..], id);
      var i :| 0 <= i < |cs[1..]| && cs[1..][i].optionId == id && cs[1..][i].optionLabel == l
        && forall j | 0 <= j < i :: cs[1..][j].optionId != id;
      assert cs[i + 1].optionId == id && forall j | 0 <= j < i + 1 :: cs[j].optionId != id;
      l
  }

  /** The labels of a schema are pairwise distinct: labels are the storage
      keys of the annotations. */
  predicate DistinctFieldLabels(s: OldSchema) {
    forall i, j | 0 <= i < j < |s| :: s[i].field.fieldLabel != s[j].field.fieldLabel
  }

  /** The option ids of one field are pairwise distinct. */
  predicate DistinctChoiceIds(cs: seq<Choice>) {
    forall i, j | 0 <= i < j < |cs| :: cs[i].optionId != cs[j].optionId
  }
}
